=== FILE: README.md ===
# Weather app core, modelled in Dafny

A model of the decision logic of a small Django weather lookup: the view
that reads a city, geocodes it through a shared cache and shows the
forecast; the per-session search history and the popularity statistics
built from it; the autocomplete endpoint; the cached geocoder with its
Open-Meteo then Nominatim fallback; the `CitySearch` counter record; and the
`wind_direction` template filter. HTTP, templates, cookies and the session
store are left out: the providers and the forecast fetch are functions
returning `Option`, the Django cache is a `map` that records each entry's
timeout, the session history is a sequence of records, and the clock is a
parameter.

Modules, one per component of the program:

- `Wrappers`: `Option`.
- `Text`: the Python string operations the code relies on, with their
  properties: `strip` (the `isspace` set and an explicit character set),
  `split(sep)` and `split(sep, 1)`, `lower` (ASCII and Cyrillic), the
  one-character `replace`, and decimal rendering of counts.
- `Seqs`: the `[:n]` slice, and subsequences.
- `Ranking`: `sorted(..., key=..., reverse=True)` as a stable insertion
  sort on sequences, with its ordering, stability and permutation
  properties.
- `Geocoding`: the cache-then-providers lookup shared by both
  `get_city_coordinates` functions.
- `Forecast`: the forecast payload and the weather-code lookup.
- `Views`: `weather/views.py`. `get_weather` is split in two:
  - `GetWeather` reads and parses the input;
  - `WeatherFor` answers a parsed query.
- `Utils`: `weather/utils.py`.
- `Models`: `weather/models.py`.
- `WeatherExtras`: `weather/templatetags/weather_extras.py`.

A few facts about the code that shape the model:

- The hourly series is the plain `[:24]` prefix of each list
  (`views.py:217-219`), with no window aligned to the current time.
- Autocomplete formats each Open-Meteo result as `name, country`
  (`views.py:110`), with no fallback to any other field.
- `increment_search_count` is a plain read-modify-write of the count
  (`models.py:19-21`).
- `get_weather` calls the `get_city_coordinates` defined in `views.py`
  itself (`views.py:59`, `views.py:224`), which asks Open-Meteo only. The
  two-provider chain of `utils.py` is modelled separately.

## Model

| member | source | states |
|---|---|---|
| Views.CityField | weather_app/weather/views.py:32-37 | POST reads the `city` form field with '' as default; GET reads it only when present; any other request has no city, which leads to the redirect home |
| Views.SplitQuery | weather_app/weather/views.py:54-56 | splitting at the first separator only: the city is the stripped text before it and holds no separator; the country is the stripped rest, which may hold more separators, or '' when there is no separator |
| Views.ParseCityInput | weather_app/weather/views.py:33-56 | the input is refused exactly when it is all whitespace; otherwise the parsed city holds no comma |
| Views.SplitStrippedQuery | weather_app/weather/views.py:54-56 | on stripped input without a comma, the city is the whole stripped input |
| Views.ParseCityInputSpec | weather_app/weather/views.py:33-56 | for input that is not blank: without a comma, the whole stripped input is the city and the country is ''; with one, the stripped parts before and after the first comma |
| Views.ApplyCountryOverride | weather_app/weather/views.py:64-65 | a non-empty typed country replaces the geocoder's; '' leaves the record untouched; the coordinates never change |
| Views.FormatWeatherData | weather_app/weather/views.py:196-221 | city and country pass through; an unknown code gives 'Unknown' and '❓', a known one exactly its table entry; hourly time, temperature and humidity are each the prefix of length min(24, n) of their series |
| Views.CacheKey | weather_app/weather/views.py:226-227 | the key is 'city_coords_' followed by the lower-cased name with spaces turned into underscores, with no quoting |
| Views.CacheKeyShared | weather_app/weather/views.py:226-227 | two names share a cache key exactly when their lower-cased, space-to-underscore forms agree |
| Views.GetCityCoordinates | weather_app/weather/views.py:224-252 | a cached record is returned with no provider call and the cache unchanged; otherwise exactly one Open-Meteo call: an answer is stored under the key with timeout 86400 and returned, and no answer gives None and leaves the cache alone |
| Views.WithoutCity | weather_app/weather/views.py:174 | the filtered history has no entry for the city, keeps every other entry, and keeps their order (it is a subsequence) |
| Views.WithoutCityOccurrences | weather_app/weather/views.py:174 | counted with repetitions: every entry for another city occurs as many times as before, and no entry for the city is left |
| Views.UpdateSearchHistory | weather_app/weather/views.py:166-184 | the new search is the head entry; no other entry has its city; the rest keep their relative order; the length is between 1 and 10 |
| Views.WithoutCityDistinct | weather_app/weather/views.py:174 | filtering keeps a duplicate-free history duplicate-free |
| Views.UpdateKeepsCitiesDistinct | weather_app/weather/views.py:174-183 | an update keeps the history free of duplicate cities |
| Views.WithoutAbsentCity | weather_app/weather/views.py:174 | filtering out a city that is absent changes nothing |
| Views.UpdateIdempotent | weather_app/weather/views.py:174-183 | repeating the same search with the same timestamp leaves the history as one search did |
| Views.HistoryLabel | weather_app/weather/views.py:81 | the remembered label is no longer than "city,country" and neither starts nor ends with a comma or a space |
| Views.HistoryLabelClean | weather_app/weather/views.py:81 | `f"{city},{country}".strip(', ')` is the city alone when the country is '', and "city,country" otherwise, for parts trimmed of commas and spaces |
| Views.GetWeather | weather_app/weather/views.py:26-89 | a request with no city field is redirected home; blank input gets the "Please enter a city name" error page with the cache and history untouched and no lookup; otherwise the parsed query is answered; a result page shows the city that was geocoded |
| Views.NotFoundMessage | weather_app/weather/views.py:61 | the not-found message holds the city verbatim between "City '" and "' not found", so the city can be read back from it |
| Views.WeatherFor | weather_app/weather/views.py:58-81 | only the city before the comma is geocoded; an unknown city gives "City '…' not found"; a failed fetch gives the fetch error; only a result page updates the history; the result is the formatted forecast for the overridden coordinates, and the search is remembered as "city,country" |
| Views.WeatherForCountry | weather_app/weather/views.py:64-77 | with a non-empty typed country, a result page shows the typed city with that country, whatever the geocoder reported |
| Views.BlankInputRefused | weather_app/weather/views.py:39-40 | empty or all-whitespace POST input gives the error page and leaves the cache and the history unchanged |
| Views.CountryOverrideWins | weather_app/weather/views.py:54-77 | for any input that is not blank, the geocoder is asked for the text before the first comma; when a non-empty country follows it, a result page shows that typed country |
| Views.SuggestionSearched | weather_app/weather/views.py:54-65 | an autocomplete suggestion "name, country" submitted as the search geocodes the name and, on a result page, shows the suggested country |
| Views.Bump | weather_app/weather/views.py:141 | `stats[city] += 1` on a defaultdict: an existing city's count goes up by one in place, and a new city is appended with count 1 |
| Views.Tally | weather_app/weather/views.py:139-141 | the defaultdict after the loop has at most one item per history entry; `TallySpec` gives its cities and counts, and `TallyFirstAppearance` their order |
| Views.TallyCovers | weather_app/weather/views.py:139-141 | every city of the history has an item in the tally |
| Views.TallyDistinct | weather_app/weather/views.py:139-141 | the tally has one item per city |
| Views.TallyCounts | weather_app/weather/views.py:139-141 | each tally item's count is its city's number of occurrences in the history, at least 1 |
| Views.TallySpec | weather_app/weather/views.py:139-141 | the three tally properties together |
| Views.TallyFirstAppearance | weather_app/weather/views.py:139-141 | the defaultdict's items come in the order of each city's first entry in the history |
| Views.CountAbsent | weather_app/weather/views.py:139-141 | a city that does not occur in the history is counted 0 times |
| Views.SortedTally | weather_app/weather/views.py:143 | sorting keeps the tally's cities distinct and their counts true |
| Views.SearchStats | weather_app/weather/views.py:139-144 | the statistics hold min(number of distinct cities, 10) items, each an item of the tally |
| Views.SearchStatsRanked | weather_app/weather/views.py:139-144 | the statistics hold at most 10 distinct cities, in non-increasing count order, each with its number of occurrences in the history |
| Views.LeftOutCity | weather_app/weather/views.py:143-144 | a history city missing from the statistics means 10 cities are shown, each searched at least as often |
| Views.SearchStatsTopTen | weather_app/weather/views.py:143-144 | the statistics are the top ten: every city left out was searched no more often than any city shown |
| Views.SearchStatsStable | weather_app/weather/views.py:143-144 | each count's cities appear in the order they have in the tally (the sort is stable) |
| Views.SearchStatsTiesByRecency | weather_app/weather/views.py:139-144 | of two shown cities with equal counts, the one whose first entry in the history comes earlier is shown first; the history is kept newest first (`views.py:177`), so among tied cities the most recently searched comes first |
| Views.Suggestions | weather_app/weather/views.py:109-112 | each result maps, in order, to "name, country" with '' for a missing country; a result without a name makes the comprehension fail |
| Views.Autocomplete | weather_app/weather/views.py:98-117 | a missing term, or one shorter than 2 after strip, gives [] without a query; otherwise the stripped term is searched and the suggestions are formatted in order; any failure gives [] |
| Views.Suggestion | weather_app/weather/views.py:110 | `f"{name}, {country}"`: the text is the name, then a comma and a space, then the country, so for a name without a comma the first comma is the one after the name; `SuggestionRoundTrip` reads it back |
| Views.SuggestionRoundTrip | weather_app/weather/views.py:110 | a suggestion fed back to the search form parses into the same name and country, for a trimmed name with no comma and a trimmed country |
| Utils.CacheKey | weather_app/weather/utils.py:15-16 | the key is 'city_coords_' followed by the quoted, lower-cased, space-to-underscore name |
| Utils.CacheKeyIgnoresCase | weather_app/weather/utils.py:15-16 | names that differ only in letter case share a key |
| Utils.CacheKeyOfLower | weather_app/weather/utils.py:15 | lower-casing the name first does not change the key |
| Utils.CacheKeyNotTrimmed | weather_app/weather/utils.py:15 | the name is not trimmed: " Paris" and "Paris" get different keys under a one-to-one quoting |
| Utils.GetCityCoordinates | weather_app/weather/utils.py:9-35 | a cache hit is returned with no provider call; Open-Meteo's answer wins whenever there is one; Nominatim is asked only when Open-Meteo has none; a success is stored under the key with timeout 86400; with no answer the result is None and the cache is not written |
| Utils.ExtractCountryFromNominatim | weather_app/weather/utils.py:87-91 | the country read from `display_name` never holds a comma; `ExtractCountrySpec` pins it down |
| Utils.ExtractCountrySpec | weather_app/weather/utils.py:87-91 | the country is the stripped text after the last comma of `display_name`, so it holds no comma; a missing or empty field gives '' |
| Utils.CountryOfDisplayName | weather_app/weather/utils.py:90-91 | the last stripped part of `display_name.split(',')` holds no comma and neither starts nor ends with whitespace; `CountryOfDisplayNameSpec` pins it down |
| Utils.CountryOfDisplayNameSpec | weather_app/weather/utils.py:90-91 | the last part of `[p.strip() for p in s.split(',')]` is the stripped text after the last comma |
| Utils.FormatWeatherData | weather_app/weather/utils.py:94-121 | an unknown code gives 'Неизвестно' and '❓'; time, temperature and precipitation are each prefixes of length min(24, n); precipitation is [] when the series is absent; the country defaults to '' |
| Geocoding.SafeName | weather_app/weather/utils.py:15 | `name.lower().replace(' ', '_')` has the name's length, holds no space, and at each place has '_' for a space and the lower-cased character otherwise (the same expression is at `views.py:226`) |
| Geocoding.FirstAnswer | weather_app/weather/utils.py:23-33 | providers are asked in order and the first answer wins; a provider is asked only if every earlier one had nothing; the result is None exactly when every provider had nothing |
| Geocoding.Resolve | weather_app/weather/utils.py:18-35 | a hit returns the cached value with the cache unchanged and no provider asked; on a miss, the first answer is stored with the one-day timeout, and no answer leaves the cache alone |
| Geocoding.ResolvePreservesCache | weather_app/weather/utils.py:18-35 | a lookup writes at most its own key, forgets nothing, and stores only with the one-day timeout; the key is cached afterwards exactly when the lookup succeeded |
| Geocoding.ResolveTwice | weather_app/weather/utils.py:19-27 | after a successful lookup, the same key is a cache hit: no provider call, the same answer, the cache unchanged |
| Forecast.Describe | weather_app/weather/views.py:201-204 | the weather-code lookup never fails: a known code gives its table entry, and any other code gives the fallback |
| Forecast.ShowCurrent | weather_app/weather/views.py:209-215 | the current block copies time, temperature and wind speed, and takes description and icon from the lookup |
| Forecast.Day | weather_app/weather/views.py:217-219 | `[:24]` is the prefix of length min(24, n) |
| Text.StripChars | weather_app/weather/views.py:81 | `str.strip(chars)`: the result is no longer than the text, is empty exactly when every character is stripped, and otherwise neither starts nor ends with a stripped character |
| Text.Strip | weather_app/weather/views.py:33 | `str.strip()`: the result is no longer than the text and neither starts nor ends with whitespace |
| Text.StripEach | weather_app/weather/views.py:54 | `[p.strip() for p in parts]`: one stripped part per part, in order (also `utils.py:90`) |
| Text.StripCharsInfix | weather_app/weather/views.py:54 | the stripped text is a contiguous piece of the original, and every character cut away before or after it is one of the stripped characters; with `StripChars` this fixes the result: only stripped characters are removed, and only up to the first and last kept one |
| Text.StripCharsLacks | weather_app/weather/views.py:54 | stripping never introduces a character |
| Text.StripCharsIdentity | weather_app/weather/views.py:33 | strip leaves a text unchanged exactly when it neither starts nor ends with a stripped character |
| Text.StripCharsIdempotent | weather_app/weather/views.py:33 | stripping twice is stripping once |
| Text.StripCharsDropsLead | weather_app/weather/views.py:54 | a stripped character in front makes no difference |
| Text.StripCharsDropsTrail | weather_app/weather/views.py:81 | a stripped character at the end makes no difference |
| Text.StripLeftAppend | weather_app/weather/views.py:81 | appending after a text that has a kept character commutes with left-stripping |
| Text.FindFirst | weather_app/weather/views.py:54 | the position of the first separator, or None exactly when there is none |
| Text.SplitOnce | weather_app/weather/views.py:54 | `split(sep, 1)` gives one or two parts, two exactly when the separator occurs; the first part has no separator; joining the parts gives back the text |
| Text.Split | weather_app/weather/utils.py:90 | `str.split(sep)` gives at least one part |
| Text.SplitPiecesFree | weather_app/weather/utils.py:90 | no part of `split(sep)` holds the separator |
| Text.JoinSplit | weather_app/weather/utils.py:90 | joining the parts of `split(sep)` gives back the text |
| Text.SplitJoin | weather_app/weather/utils.py:90 | splitting a join of separator-free parts gives back the parts |
| Text.AfterLast | weather_app/weather/utils.py:90-91 | the text after the last separator is a separator-free suffix, preceded by the separator unless it is the whole text |
| Text.SplitLast | weather_app/weather/utils.py:90-91 | the last part of `split(sep)` is the text after the last separator |
| Text.Lower | weather_app/weather/views.py:226 | `lower` maps every character to its lower case and keeps the length |
| Text.LowerIdempotent | weather_app/weather/utils.py:15 | a lower-cased text has no upper-case letter, and lower-casing it again changes nothing |
| Text.Replace | weather_app/weather/views.py:226 | `replace(' ', '_')` changes exactly the spaces and keeps the length |
| Text.Decimal | weather_app/weather/models.py:17 | the rendering of a count is a non-empty run of digits, with no leading zero unless the count is 0 |
| Text.DecimalRoundTrip | weather_app/weather/models.py:17 | reading back the digits of a rendered count gives the count |
| Seqs.Take | weather_app/weather/views.py:183 | `[:n]` is the prefix of length min(len, n) |
| Seqs.TakeTake | weather_app/weather/views.py:183 | cutting to n and then to m, with m ≤ n, is cutting to m |
| Seqs.SubsequenceOfTake | weather_app/weather/views.py:174-183 | a prefix of a subsequence is still a subsequence |
| Ranking.Insert | weather_app/weather/views.py:143 | inserting adds exactly one element |
| Ranking.InsertBounded | weather_app/weather/views.py:143 | inserting keeps a common upper bound on the keys |
| Ranking.InsertNonIncreasing | weather_app/weather/views.py:143 | inserting into a list sorted highest first keeps it sorted |
| Ranking.InsertWithKey | weather_app/weather/views.py:143 | the inserted element goes in front of the existing elements with the same key |
| Ranking.SortDesc | weather_app/weather/views.py:143 | `sorted(..., reverse=True)` is a permutation of its input |
| Ranking.SortDescOrdered | weather_app/weather/views.py:143 | the sorted list has non-increasing keys |
| Ranking.SortDescStable | weather_app/weather/views.py:143 | the sort is stable: elements sharing a key keep their input order |
| Ranking.TakeNonIncreasing | weather_app/weather/views.py:144 | the first ten of a sorted list are still sorted |
| Ranking.InsertRankAbove | weather_app/weather/views.py:143 | inserting keeps a lower bound on the ranks of the elements with any one key |
| Ranking.PrependTiesRanked | weather_app/weather/views.py:143 | an element put in front, ranked below all its ties, keeps ties in rank order |
| Ranking.InsertTiesRanked | weather_app/weather/views.py:143 | inserting an element ranked below all others puts it in front of its ties, which keeps ties in rank order |
| Ranking.SortDescTiesRanked | weather_app/weather/views.py:143 | for an input in strictly increasing rank, any two elements with equal keys keep that rank order after the sort |
| Ranking.WithKeyOfTake | weather_app/weather/views.py:144 | cutting a list keeps each key's elements in order, as a prefix of that key's elements |
| Models.Create | weather_app/weather/models.py:9 | a new row starts with search count 1 and the given name, country and coordinates |
| Models.Increment | weather_app/weather/models.py:19-21 | `increment_search_count` raises the count by exactly 1 (1 becomes 2), and leaves name, country, latitude and longitude unchanged |
| Models.IncrementAllCount | weather_app/weather/models.py:19-21 | after n increments the count is n higher, and nothing but the count and the save time has changed |
| Models.CountAtLeastOne | weather_app/weather/models.py:9 | a created row after n increments counts 1 + n, so never less than 1 |
| Models.DefaultOrdering | weather_app/weather/models.py:14 | the default listing is a rearrangement of the rows |
| Models.DefaultOrderingMostSearchedFirst | weather_app/weather/models.py:14 | the default listing has non-increasing search counts |
| Models.Display | weather_app/weather/models.py:16-17 | the length of `__str__`: the name, " (", the digits of the count, " searches)" |
| Models.DisplayReadBack | weather_app/weather/models.py:16-17 | `__str__` starts with the city name and " (", ends with " searches)", and the digits between read back as the search count |
| WeatherExtras.Trunc | weather_app/weather/templatetags/weather_extras.py:11 | Python's `int()` rounds toward zero |
| WeatherExtras.SectorIndex | weather_app/weather/templatetags/weather_extras.py:11 | thanks to `% 8` the label index is always in [0, 8) |
| WeatherExtras.WindDirection | weather_app/weather/templatetags/weather_extras.py:7-12 | a missing bearing gives '—'; any bearing gives one of the 8 labels |
| WeatherExtras.WindDirectionSector | weather_app/weather/templatetags/weather_extras.py:10-12 | a bearing in [45k − 22.5, 45k + 22.5), for k ≥ 0, gets label k mod 8 |
| WeatherExtras.CardinalPoints | weather_app/weather/templatetags/weather_extras.py:10-12 | 0 gives 'С', 90 gives 'В', 180 gives 'Ю' and 270 gives 'З'; 22.5 gives 'С-В'; 337.5 and 360 both give 'С' |
| WeatherExtras.WindDirectionPeriodic | weather_app/weather/templatetags/weather_extras.py:11 | d and d + 360 get the same label for d ≥ −22.5 |
| WeatherExtras.NegativeBearingMislabelled | weather_app/weather/templatetags/weather_extras.py:11 | −30 lies in the north-west sector, yet the filter as written labels it 'С' |
| WeatherExtras.NegativeSectorShifted | weather_app/weather/templatetags/weather_extras.py:11 | as written, every bearing strictly inside a sector below −22.5, (45·(−k) − 22.5, 45·(−k) + 22.5) for k ≥ 1, gets the label of sector 1 − k (mod 8) instead of −k, one sector clockwise of its own |
| WeatherExtras.NegativeBoundaryRight | weather_app/weather/templatetags/weather_extras.py:11 | as written, the sector boundaries −67.5, −112.5, … (45·(−k) − 22.5 for k ≥ 1) still get their own sector's label |
| WeatherExtras.WindDirectionFloor | weather_app/weather/templatetags/weather_extras.py:7-12 | the corrected filter (quotient rounded down) still gives '—' or one of the 8 labels |
| WeatherExtras.WindDirectionFloorSector | weather_app/weather/templatetags/weather_extras.py:10-12 | with the correction, every bearing in [45k − 22.5, 45k + 22.5), for any integer k, gets label k mod 8 |
| WeatherExtras.WindDirectionFloorPeriodic | weather_app/weather/templatetags/weather_extras.py:11 | with the correction, a full turn either way never changes the label |
| WeatherExtras.WindDirectionAgrees | weather_app/weather/templatetags/weather_extras.py:11 | for bearings of −22.5 and up, the filter as written and the corrected one agree |

## Left out

- HTTP: the requests to Open-Meteo, Nominatim and the forecast API. A provider is a function from the name to `Option<Coords>`, and the fetch is a function from coordinates to `Option` of the payload. None stands for the outcomes the code handles: no results, and the `requests.RequestException` caught in `try_openmeteo_geocoding` (`utils.py:55`), `try_nominatim_geocoding` (`utils.py:81`) and `fetch_weather_data` (`views.py:161`). The URL building (`views.py:103-104`, `views.py:150-155`, `views.py:232-233`, `utils.py:40-41`, `utils.py:63-66`) is part of those functions.
- Exceptions that escape in the code are not modelled. A geocoding result without `latitude` (`utils.py:51`) or with a `lat` that `float()` rejects (`utils.py:77`) raises out of `utils.get_city_coordinates`. A forecast payload without `current_weather` or `hourly` raises `KeyError` in `format_weather_data` (`views.py:198-199`), which `get_weather` does not catch. Only `autocomplete` (`views.py:114`) and the `views.py` `get_city_coordinates` (`views.py:249`) catch every exception. The model treats every payload as well-formed.
- `try_openmeteo_geocoding` and `try_nominatim_geocoding` are left abstract, as providers. The `float()` conversions of Nominatim's `lat`/`lon` are not modelled either. Only `extract_country_from_nominatim`, which they call, is modelled.
- `urllib.parse.quote` in `utils.get_city_coordinates` is a parameter: any deterministic function of the safe name.
- Rendering, redirects, the `recent_city` cookie (`views.py:84-88`), `render_weather_error`, `home` and `search_history_api` are not modelled, because they are presentation and session plumbing. A page is `RedirectHome`, `ErrorPage(message)` or `ResultPage(formatted)`.
- The session itself is not modelled, because it is storage: the history is a sequence passed in and returned.
- Cache expiry is not modelled: the cache is a map recording each entry's timeout, and entries never expire. A cached value is always a non-empty dictionary, so "truthy" is "present".
- `WEATHER_CODES` is an abstract map from code to description and icon. `constants.py` is not part of this model.
- The error `print`s (`views.py:162`, `views.py:250`, `utils.py:56`, `utils.py:82`) are not modelled, because they are logging with no effect on any result.
- The timestamp of a history item is a parameter (`now`), not the clock.
- Floating point: bearings, coordinates and temperatures are Dafny `real`s, so there is no float rounding.
- `Views.GetWeather`: `request.GET.get('city').strip()` cannot fail here, because a GET request with the field always carries a string.
- `Models.DefaultOrdering`: the database may order rows with equal counts arbitrarily. The model sorts stably, which is one of the orders the database may return.
- `Models.Increment`: `PositiveIntegerField` has a database bound of 2147483647. The model uses unbounded naturals, because the Python code never checks the bound.
- `Models.Create`: nothing in the app creates a `CitySearch` row (only `tests.py:10-12` does), so only the default count and the copied fields are modelled.
- `Text.Lower`: Python's `lower` is modelled for ASCII and basic Cyrillic (U+0410–U+042F and U+0400–U+040F) only. Other scripts are left unchanged.
- `Views.Suggestions`: a result without `name` raises `KeyError` in the comprehension. The `except Exception` then turns it into []. The model has the same outcome, but does not model the exception itself.
- `admin.py`, `urls.py` and `tests.py` are not modelled, because they hold configuration and tests, not logic.

## Findings

| source | as written | input that shows it | evidently intended | confidence | as-written member | corrected member |
|---|---|---|---|---|---|---|
| weather_app/weather/templatetags/weather_extras.py:11 | `int((degree + 22.5) / 45) % 8` rounds the quotient toward zero | degree −30: (−30 + 22.5) / 45 = −1/6 becomes 0, so the label is 'С' although −30 lies in the sector [−67.5, −22.5) of 'С-З'; every bearing strictly inside a sector below −22.5 is one sector off, while the boundaries −67.5, −112.5, … are labelled right | rounding down (`math.floor`), so that each label covers its 45-degree sector for any bearing | not executed; weather services report bearings in [0, 360], where the two agree | WeatherExtras.NegativeBearingMislabelled | WeatherExtras.WindDirectionFloorSector |

=== FILE: forecast.dfy ===
/**
 * The forecast provider's payload and the weather-code table, shared by the
 * two `format_weather_data` functions.
 */
module Forecast {
  import opened Wrappers
  import Seqs

  /** One entry of `WEATHER_CODES`: `{'desc': ..., 'icon': ...}`. */
  datatype WeatherInfo = WeatherInfo(desc: string, icon: string)

  /** `WEATHER_CODES`, whose contents are not part of this model. */
  type WeatherCodes = map<int, WeatherInfo>

  /** `data['current_weather']`. */
  datatype Current = Current(time: string, temperature: real, windspeed: real, weathercode: int)

  /**
   * `data['hourly']`: parallel series. `precipitation_probability` is
   * optional because only one formatter reads it, with a default.
   */
  datatype Hourly = Hourly(
    time: seq<string>,
    temperature: seq<real>,
    humidity: seq<real>,
    precipitation: Option<seq<real>>)

  datatype RawForecast = RawForecast(current: Current, hourly: Hourly)

  /** `[:24]`: both formatters keep at most a day of hourly values. */
  const HourlyLimit: nat := 24

  const UnknownIcon: string := "❓"

  /** The `current` block of a formatted result. */
  datatype CurrentView = CurrentView(
    time: string, temperature: real, windspeed: real, desc: string, icon: string)

  /** `WEATHER_CODES.get(code, fallback)`: never fails, whatever the code. */
  function Describe(codes: WeatherCodes, code: int, fallback: WeatherInfo): (w: WeatherInfo)
    ensures code in codes ==> w == codes[code]
    ensures code !in codes ==> w == fallback
  {
    if code in codes then codes[code] else fallback
  }

  /** The `current` block: the provider's reading plus the table's description and icon. */
  function ShowCurrent(current: Current, codes: WeatherCodes, fallback: WeatherInfo): (v: CurrentView)
    ensures v.time == current.time
    ensures v.temperature == current.temperature && v.windspeed == current.windspeed
    ensures WeatherInfo(v.desc, v.icon) == Describe(codes, current.weathercode, fallback)
  {
    var info := Describe(codes, current.weathercode, fallback);
    CurrentView(current.time, current.temperature, current.windspeed, info.desc, info.icon)
  }

  /** `series[:24]`: the first min(24, n) values, in order. */
  function Day<T>(series: seq<T>): (r: seq<T>)
    ensures |r| == Seqs.Min(|series|, HourlyLimit)
    ensures r <= series
  {
    Seqs.Take(series, HourlyLimit)
  }
}

=== FILE: geocoding.dfy ===
/**
 * City resolution shared by both `get_city_coordinates` functions: look the
 * key up in the cache, otherwise ask the providers in order, and store the
 * first answer for a day. A provider is a deterministic function from the
 * city name to a coordinate record or None (no match, a transport error and
 * an unreadable body all come back as None).
 */
module Geocoding {
  import opened Wrappers
  import opened Text

  /** The `{'latitude', 'longitude', 'country'}` dictionary every geocoder returns. */
  datatype Coords = Coords(latitude: real, longitude: real, country: string)

  /** What the cache holds under a key: the value and the timeout it was stored with. */
  datatype Entry = Entry(value: Coords, timeout: nat)

  type Cache = map<string, Entry>

  type Geocoder = string -> Option<Coords>

  /** `timeout=60 * 60 * 24`: one day, in seconds. */
  const CoordsTtl: nat := 60 * 60 * 24

  /** Every cache key starts with this. */
  const CacheKeyPrefix: string := "city_coords_"

  /** `city_name.lower().replace(' ', '_')`; note that the name is not trimmed. */
  function SafeName(name: string): (safe: string)
    ensures |safe| == |name|
    ensures Lacks(safe, ' ')
    ensures forall k :: 0 <= k < |name| ==> safe[k] == (if name[k] == ' ' then '_' else LowerChar(name[k]))
  {
    Replace(Lower(name), ' ', '_')
  }

  /** The outcome of asking a list of providers: the answer and how many were asked. */
  datatype Attempt = Attempt(result: Option<Coords>, consulted: nat)

  /** Asks the providers in order and stops at the first that answers. */
  function FirstAnswer(providers: seq<Geocoder>, name: string): (a: Attempt)
    ensures a.consulted <= |providers|
    ensures a.result.None? <==> forall i :: 0 <= i < |providers| ==> providers[i](name).None?
    ensures a.result.None? ==> a.consulted == |providers|
    ensures a.result.Some? ==>
      && a.consulted >= 1
      && a.result == providers[a.consulted - 1](name)
      && forall i :: 0 <= i < a.consulted - 1 ==> providers[i](name).None?
  {
    if |providers| == 0 then Attempt(None, 0)
    else match providers[0](name)
      case Some(c) => Attempt(Some(c), 1)
      case None =>
        var rest := FirstAnswer(providers[1..], name);
        assert forall i :: 1 <= i < |providers| ==> providers[i] == providers[1..][i - 1];
        Attempt(rest.result, rest.consulted + 1)
  }

  /** The lookup's answer, the cache after it, and how many providers it called. */
  datatype Resolution = Resolution(coords: Option<Coords>, cache: Cache, consulted: nat)

  /**
   * `cached = cache.get(key)`; a hit is returned as is. Otherwise the first
   * provider answer is stored with a one-day timeout and returned; with no
   * answer the cache is left alone and the result is None. A stored record is
   * a three-key dictionary, so a hit is always truthy.
   */
  function Resolve(cache: Cache, key: string, name: string, providers: seq<Geocoder>): (r: Resolution)
    ensures key in cache ==> r == Resolution(Some(cache[key].value), cache, 0)
    ensures key !in cache ==>
      var a := FirstAnswer(providers, name);
      && r.coords == a.result
      && r.consulted == a.consulted
      && (a.result.None? ==> r.cache == cache)
      && (a.result.Some? ==> r.cache == cache[key := Entry(a.result.value, CoordsTtl)])
  {
    if key in cache then Resolution(Some(cache[key].value), cache, 0)
    else
      var a := FirstAnswer(providers, name);
      match a.result
      case None => Resolution(None, cache, a.consulted)
      case Some(c) => Resolution(Some(c), cache[key := Entry(c, CoordsTtl)], a.consulted)
  }

  /** Every entry was written by this code, hence with the one-day timeout. */
  predicate WellFormed(cache: Cache) {
    forall k :: k in cache ==> cache[k].timeout == CoordsTtl
  }

  /**
   * A lookup keeps the cache well formed, touches no key but its own, and
   * never forgets: whatever was cached before is cached after.
   */
  lemma ResolvePreservesCache(cache: Cache, key: string, name: string, providers: seq<Geocoder>)
    requires WellFormed(cache)
    ensures var r := Resolve(cache, key, name, providers);
      && WellFormed(r.cache)
      && cache.Keys <= r.cache.Keys <= cache.Keys + {key}
      && (forall k :: k in cache ==> r.cache[k] == cache[k])
      && (r.coords.Some? <==> key in r.cache)
      && (key in r.cache ==> r.coords == Some(r.cache[key].value))
  {
  }

  /**
   * Resolving a name a second time, with any providers, is a cache hit: it
   * calls no provider, returns the first answer and leaves the cache alone.
   */
  lemma ResolveTwice(cache: Cache, key: string, name: string, providers: seq<Geocoder>,
                     name2: string, providers2: seq<Geocoder>)
    requires Resolve(cache, key, name, providers).coords.Some?
    ensures var first := Resolve(cache, key, name, providers);
      var second := Resolve(first.cache, key, name2, providers2);
      && second.consulted == 0
      && second.coords == first.coords
      && second.cache == first.cache
  {
  }
}

=== FILE: models.dfy ===
/**
 * The `CitySearch` record: one row per searched city, with a counter that
 * starts at one and goes up by one on every further search, listed most
 * searched first.
 */
module Models {
  import opened Wrappers
  import opened Text
  import Ranking

  /**
   * A row. `lastSearch` is the `auto_now` timestamp, set from the clock on
   * every save; the clock is a parameter of the operations that save.
   */
  datatype CitySearch = CitySearch(
    cityName: string,
    country: Option<string>,
    latitude: real,
    longitude: real,
    searchCount: nat,
    lastSearch: int)

  /** `search_count = PositiveIntegerField(default=1)`. */
  const DefaultSearchCount: nat := 1

  /** A new row saved at time `now`, with the default count. */
  function Create(cityName: string, country: Option<string>, latitude: real, longitude: real, now: int): (c: CitySearch)
    ensures c.searchCount == DefaultSearchCount
    ensures c.cityName == cityName && c.country == country
    ensures c.latitude == latitude && c.longitude == longitude
  {
    CitySearch(cityName, country, latitude, longitude, DefaultSearchCount, now)
  }

  /** `increment_search_count`: add one and save, which stamps the time. */
  function Increment(c: CitySearch, now: int): (d: CitySearch)
    ensures d.searchCount == c.searchCount + 1
    ensures d.cityName == c.cityName && d.country == c.country
    ensures d.latitude == c.latitude && d.longitude == c.longitude
    ensures d.lastSearch == now
  {
    c.(searchCount := c.searchCount + 1, lastSearch := now)
  }

  /** One `increment_search_count` per entry of `stamps`, in order. */
  function IncrementAll(c: CitySearch, stamps: seq<int>): CitySearch
    decreases |stamps|
  {
    if |stamps| == 0 then c
    else IncrementAll(Increment(c, stamps[0]), stamps[1..])
  }

  /**
   * After any number of increments the count has grown by exactly that
   * number, and nothing but the count and the time has changed.
   */
  lemma {:induction false} IncrementAllCount(c: CitySearch, stamps: seq<int>)
    ensures IncrementAll(c, stamps).searchCount == c.searchCount + |stamps|
    ensures IncrementAll(c, stamps).(searchCount := 0, lastSearch := 0) == c.(searchCount := 0, lastSearch := 0)
    decreases |stamps|
  {
    if |stamps| > 0 {
      IncrementAllCount(Increment(c, stamps[0]), stamps[1..]);
    }
  }

  /** A row created by the search and bumped by every later search counts them all, so never less than one. */
  lemma CountAtLeastOne(cityName: string, country: Option<string>, latitude: real, longitude: real, now: int, stamps: seq<int>)
    ensures IncrementAll(Create(cityName, country, latitude, longitude, now), stamps).searchCount == 1 + |stamps|
  {
    IncrementAllCount(Create(cityName, country, latitude, longitude, now), stamps);
  }

  function SearchCountKey(c: CitySearch): int {
    c.searchCount
  }

  /** `Meta.ordering = ['-search_count']`: the default listing of the rows. */
  function DefaultOrdering(rows: seq<CitySearch>): (r: seq<CitySearch>)
    ensures |r| == |rows| && multiset(r) == multiset(rows)
  {
    Ranking.SortDesc(rows, SearchCountKey)
  }

  /** The default listing puts the most searched city first. */
  lemma DefaultOrderingMostSearchedFirst(rows: seq<CitySearch>)
    ensures var r := DefaultOrdering(rows);
      forall i, j :: 0 <= i < j < |r| ==> r[i].searchCount >= r[j].searchCount
  {
    var r := DefaultOrdering(rows);
    Ranking.SortDescOrdered(rows, SearchCountKey);
    forall i, j | 0 <= i < j < |r| ensures r[i].searchCount >= r[j].searchCount {
      assert SearchCountKey(r[i]) >= SearchCountKey(r[j]);
    }
  }

  /** What follows the count in `__str__`. */
  const SearchesSuffix: string := " searches)"

  /** `__str__`: `"<city_name> (<search_count> searches)"`. */
  function Display(c: CitySearch): (s: string)
    ensures |s| == |c.cityName| + 2 + |Decimal(c.searchCount)| + |SearchesSuffix|
  {
    c.cityName + " (" + Decimal(c.searchCount) + SearchesSuffix
  }

  /**
   * The text starts with the city name, ends with " searches)", and the
   * digits between the opening parenthesis and that ending read back as
   * the count.
   */
  lemma DisplayReadBack(c: CitySearch)
    ensures var s := Display(c);
      var n := |c.cityName|;
      && s[..n] == c.cityName
      && s[n..n + 2] == " ("
      && s[|s| - |SearchesSuffix|..] == SearchesSuffix
      && (forall k :: n + 2 <= k < |s| - |SearchesSuffix| ==> IsDigit(s[k]))
      && ParseDecimal(s[n + 2..|s| - |SearchesSuffix|]) == c.searchCount
  {
    var s := Display(c);
    var n := |c.cityName|;
    var d := Decimal(c.searchCount);
    assert s[n + 2..|s| - |SearchesSuffix|] == d;
    DecimalRoundTrip(c.searchCount);
  }
}

=== FILE: ranking.dfy ===
/**
 * Ordering by a numeric key, highest first, as Python's
 * `sorted(xs, key=k, reverse=True)` does it: stable, so elements with equal
 * keys keep their original relative order.
 */
module Ranking {
  import Seqs

  /** Keys never increase from left to right. */
  predicate NonIncreasing<T>(s: seq<T>, key: T -> int) {
    forall i, j :: 0 <= i < j < |s| ==> key(s[i]) >= key(s[j])
  }

  /** The elements of `s` whose key is `v`, in their order in `s`. */
  function WithKey<T>(s: seq<T>, key: T -> int, v: int): seq<T> {
    if |s| == 0 then []
    else (if key(s[0]) == v then [s[0]] else []) + WithKey(s[1..], key, v)
  }

  /** Puts `x` in front of the first element whose key is not greater than its own. */
  function Insert<T(==)>(x: T, s: seq<T>, key: T -> int): (r: seq<T>)
    ensures |r| == |s| + 1
    ensures multiset(r) == multiset(s) + multiset{x}
  {
    if |s| == 0 || key(x) >= key(s[0]) then [x] + s
    else
      assert s == [s[0]] + s[1..];
      [s[0]] + Insert(x, s[1..], key)
  }

  /** Inserting an element under a key bound keeps every key under that bound. */
  lemma {:induction false} InsertBounded<T>(x: T, s: seq<T>, key: T -> int, b: int)
    requires key(x) <= b
    requires forall k :: 0 <= k < |s| ==> key(s[k]) <= b
    ensures forall k :: 0 <= k < |Insert(x, s, key)| ==> key(Insert(x, s, key)[k]) <= b
  {
    if |s| > 0 && key(x) < key(s[0]) {
      InsertBounded(x, s[1..], key, b);
      var r := Insert(x, s, key);
      assert r[1..] == Insert(x, s[1..], key);
    }
  }

  lemma {:induction false} InsertNonIncreasing<T>(x: T, s: seq<T>, key: T -> int)
    requires NonIncreasing(s, key)
    ensures NonIncreasing(Insert(x, s, key), key)
  {
    if |s| > 0 && key(x) < key(s[0]) {
      var rest := Insert(x, s[1..], key);
      InsertNonIncreasing(x, s[1..], key);
      InsertBounded(x, s[1..], key, key(s[0]));
      var r := Insert(x, s, key);
      assert r == [s[0]] + rest;
      forall i, j | 0 <= i < j < |r| ensures key(r[i]) >= key(r[j]) {
        assert r[j] == rest[j - 1];
        if i > 0 {
          assert r[i] == rest[i - 1];
        }
      }
    }
  }

  lemma {:induction false} InsertWithKey<T>(x: T, s: seq<T>, key: T -> int, v: int)
    ensures WithKey(Insert(x, s, key), key, v) == (if key(x) == v then [x] else []) + WithKey(s, key, v)
  {
    var r := Insert(x, s, key);
    if |s| == 0 || key(x) >= key(s[0]) {
      assert r[0] == x && r[1..] == s;
    } else {
      var rest := Insert(x, s[1..], key);
      InsertWithKey(x, s[1..], key, v);
      assert r[0] == s[0] && r[1..] == rest;
      var head := if key(s[0]) == v then [s[0]] else [];
      var mid := if key(x) == v then [x] else [];
      calc {
        WithKey(r, key, v);
        head + WithKey(rest, key, v);
        head + (mid + WithKey(s[1..], key, v));
        { assert head + (mid + WithKey(s[1..], key, v)) == mid + (head + WithKey(s[1..], key, v)); }
        mid + (head + WithKey(s[1..], key, v));
        mid + WithKey(s, key, v);
      }
    }
  }

  /** A prefix of a sequence sorted highest first is sorted the same way. */
  lemma TakeNonIncreasing<T>(s: seq<T>, key: T -> int, n: nat)
    requires NonIncreasing(s, key)
    ensures NonIncreasing(Seqs.Take(s, n), key)
  {
    var t := Seqs.Take(s, n);
    forall i, j | 0 <= i < j < |t| ensures key(t[i]) >= key(t[j]) {
      assert t[i] == s[i] && t[j] == s[j];
    }
  }

  /** `sorted(s, key=key, reverse=True)`: a rearrangement of `s`. */
  function SortDesc<T(==)>(s: seq<T>, key: T -> int): (r: seq<T>)
    ensures |r| == |s|
    ensures multiset(r) == multiset(s)
  {
    if |s| == 0 then []
    else
      assert s == [s[0]] + s[1..];
      Insert(s[0], SortDesc(s[1..], key), key)
  }

  /** The sorted sequence has the highest key first. */
  lemma {:induction false} SortDescOrdered<T>(s: seq<T>, key: T -> int)
    ensures NonIncreasing(SortDesc(s, key), key)
  {
    if |s| > 0 {
      SortDescOrdered(s[1..], key);
      InsertNonIncreasing(s[0], SortDesc(s[1..], key), key);
    }
  }

  /**
   * The sort is stable: the elements carrying any one key value appear in
   * the same order as in the input.
   */
  lemma {:induction false} SortDescStable<T>(s: seq<T>, key: T -> int, v: int)
    ensures WithKey(SortDesc(s, key), key, v) == WithKey(s, key, v)
  {
    if |s| > 0 {
      SortDescStable(s[1..], key, v);
      InsertWithKey(s[0], SortDesc(s[1..], key), key, v);
    }
  }

  /** Elements with equal keys come in increasing `rank`. */
  predicate TiesRanked<T>(s: seq<T>, key: T -> int, rank: T -> int) {
    forall i, j :: 0 <= i < j < |s| && key(s[i]) == key(s[j]) ==> rank(s[i]) < rank(s[j])
  }

  /** A lower bound on the ranks of the elements with key `v` survives an insertion. */
  lemma {:induction false} InsertRankAbove<T>(x: T, s: seq<T>, key: T -> int, rank: T -> int, v: int, b: int)
    requires key(x) == v ==> rank(x) > b
    requires forall k :: 0 <= k < |s| && key(s[k]) == v ==> rank(s[k]) > b
    ensures forall k :: 0 <= k < |Insert(x, s, key)| && key(Insert(x, s, key)[k]) == v ==> rank(Insert(x, s, key)[k]) > b
  {
    if |s| > 0 && key(x) < key(s[0]) {
      InsertRankAbove(x, s[1..], key, rank, v, b);
      var r := Insert(x, s, key);
      assert r[1..] == Insert(x, s[1..], key);
    }
  }

  /**
   * Inserting an element ranked below everything already there keeps ties
   * in rank order: it lands in front of every element with its key.
   */
  lemma {:induction false} InsertTiesRanked<T>(x: T, s: seq<T>, key: T -> int, rank: T -> int)
    requires TiesRanked(s, key, rank)
    requires forall k :: 0 <= k < |s| ==> rank(x) < rank(s[k])
    ensures TiesRanked(Insert(x, s, key), key, rank)
  {
    if |s| == 0 || key(x) >= key(s[0]) {
      PrependTiesRanked(x, s, key, rank);
    } else {
      var rest := Insert(x, s[1..], key);
      InsertTiesRanked(x, s[1..], key, rank);
      InsertRankAbove(x, s[1..], key, rank, key(s[0]), rank(s[0]));
      assert Insert(x, s, key) == [s[0]] + rest;
      PrependTiesRanked(s[0], rest, key, rank);
    }
  }

  /** Putting a tied element in front keeps ties ranked when it is ranked below its ties. */
  lemma PrependTiesRanked<T>(x: T, s: seq<T>, key: T -> int, rank: T -> int)
    requires TiesRanked(s, key, rank)
    requires forall k :: 0 <= k < |s| && key(s[k]) == key(x) ==> rank(x) < rank(s[k])
    ensures TiesRanked([x] + s, key, rank)
  {
    var r := [x] + s;
    forall i, j | 0 <= i < j < |r| && key(r[i]) == key(r[j]) ensures rank(r[i]) < rank(r[j]) {
      assert r[j] == s[j - 1];
      if i > 0 {
        assert r[i] == s[i - 1];
      }
    }
  }

  /**
   * The sort is stable in the pairwise sense: if the input is in strictly
   * increasing `rank`, any two elements with equal keys keep that order.
   */
  lemma {:induction false} SortDescTiesRanked<T>(s: seq<T>, key: T -> int, rank: T -> int)
    requires forall i, j :: 0 <= i < j < |s| ==> rank(s[i]) < rank(s[j])
    ensures TiesRanked(SortDesc(s, key), key, rank)
  {
    if |s| > 0 {
      var tail := SortDesc(s[1..], key);
      SortDescTiesRanked(s[1..], key, rank);
      forall k | 0 <= k < |tail| ensures rank(s[0]) < rank(tail[k]) {
        assert tail[k] in multiset(s[1..]);
        var m :| 0 <= m < |s[1..]| && s[1..][m] == tail[k];
        assert s[m + 1] == tail[k];
      }
      InsertTiesRanked(s[0], tail, key, rank);
    }
  }

  /** Cutting a sequence short cuts each of its key classes short. */
  lemma {:induction false} WithKeyOfTake<T>(s: seq<T>, key: T -> int, n: nat, v: int)
    ensures WithKey(Seqs.Take(s, n), key, v) <= WithKey(s, key, v)
  {
    if |s| > 0 && n > 0 {
      WithKeyOfTake(s[1..], key, n - 1, v);
      var t := Seqs.Take(s, n);
      var head := if key(s[0]) == v then [s[0]] else [];
      assert t[0] == s[0];
      assert t[1..] == Seqs.Take(s[1..], n - 1);
      assert WithKey(t, key, v) == head + WithKey(t[1..], key, v);
      assert WithKey(s, key, v) == head + WithKey(s[1..], key, v);
    }
  }
}

=== FILE: seqs.dfy ===
/** Python list slicing and counting, on Dafny sequences. */
module Seqs {

  function Min(a: nat, b: nat): nat {
    if a < b then a else b
  }

  /** `s[:n]`: the first `n` elements, or all of them when there are fewer. */
  function Take<T>(s: seq<T>, n: nat): (r: seq<T>)
    ensures |r| == Min(|s|, n)
    ensures r <= s
  {
    if |s| < n then s else s[..n]
  }

  /** A prefix cut keeps whatever a longer prefix cut kept, up to the shorter bound. */
  lemma TakeTake<T>(s: seq<T>, m: nat, n: nat)
    requires m <= n
    ensures Take(Take(s, n), m) == Take(s, m)
  {
  }

  /** `a` is `b` with some elements left out, the rest in their original order. */
  predicate IsSubsequence<T(==)>(a: seq<T>, b: seq<T>)
    decreases |b|
  {
    if |a| == 0 then true
    else if |b| == 0 then false
    else if a[0] == b[0] then IsSubsequence(a[1..], b[1..])
    else IsSubsequence(a, b[1..])
  }

  /** A prefix of a subsequence is still a subsequence. */
  lemma {:induction false} SubsequenceOfTake<T>(a: seq<T>, b: seq<T>, n: nat)
    requires IsSubsequence(a, b)
    ensures IsSubsequence(Take(a, n), b)
    decreases |b|
  {
    if |a| == 0 || n == 0 {
      assert Take(a, n) == [];
    } else {
      assert |b| > 0;
      if a[0] == b[0] {
        SubsequenceOfTake(a[1..], b[1..], n - 1);
        assert Take(a, n)[1..] == Take(a[1..], n - 1);
      } else {
        SubsequenceOfTake(a, b[1..], n);
      }
    }
  }

  /** An element of `t` sits somewhere in any rearrangement `s` of it. */
  lemma IndexInPermutation<T>(t: seq<T>, s: seq<T>, m: nat) returns (p: nat)
    requires multiset(s) == multiset(t) && m < |t|
    ensures p < |s| && s[p] == t[m]
  {
    assert t[m] in multiset(s);
    p :| 0 <= p < |s| && s[p] == t[m];
  }
}

=== FILE: text.dfy ===
/**
 * The handful of Python `str` operations the weather views rely on:
 * `strip`, `split`, `split(sep, 1)`, `lower`, `replace` between single
 * characters, and the decimal rendering of a count in an f-string.
 * Strings are `seq<char>`.
 */
module Text {
  import opened Wrappers

  /** The characters Python's `str.isspace()` accepts, hence what `str.strip()` removes. */
  const Whitespace: set<char> := {
    ' ', '\t', '\n', '\r', '\U{B}', '\U{C}', '\U{1C}', '\U{1D}', '\U{1E}', '\U{1F}',
    '\U{85}', '\U{A0}', '\U{1680}', '\U{2000}', '\U{2001}', '\U{2002}', '\U{2003}',
    '\U{2004}', '\U{2005}', '\U{2006}', '\U{2007}', '\U{2008}', '\U{2009}', '\U{200A}',
    '\U{2028}', '\U{2029}', '\U{202F}', '\U{205F}', '\U{3000}'
  }

  /** `c not in s`, spelled out index by index. */
  predicate Lacks(s: string, c: char) {
    forall k :: 0 <= k < |s| ==> s[k] != c
  }

  // ---------------------------------------------------------------------------
  // strip

  /** `s.lstrip(cs)`: drops the longest prefix made of characters in `cs`. */
  function StripLeft(s: string, cs: set<char>): (r: string)
    ensures |r| <= |s| && r == s[|s| - |r|..]
    ensures forall k :: 0 <= k < |s| - |r| ==> s[k] in cs
    ensures r == [] || r[0] !in cs
  {
    if |s| > 0 && s[0] in cs then StripLeft(s[1..], cs) else s
  }

  /** `s.rstrip(cs)`: drops the longest suffix made of characters in `cs`. */
  function StripRight(s: string, cs: set<char>): (r: string)
    ensures |r| <= |s| && r == s[..|r|]
    ensures forall k :: |r| <= k < |s| ==> s[k] in cs
    ensures r == [] || r[|r| - 1] !in cs
  {
    if |s| > 0 && s[|s| - 1] in cs then StripRight(s[..|s| - 1], cs) else s
  }

  /**
   * `s.strip(cs)`: the contiguous middle of `s` left once every leading and
   * trailing character in `cs` is removed.
   */
  function StripChars(s: string, cs: set<char>): (r: string)
    ensures |r| <= |s|
    ensures r == [] || (r[0] !in cs && r[|r| - 1] !in cs)
    ensures r == [] <==> forall k :: 0 <= k < |s| ==> s[k] in cs
  {
    var left := StripLeft(s, cs);
    var r := StripRight(left, cs);
    if r == [] then r
    else
      assert r[0] == left[0];
      r
  }

  /**
   * The strip is a contiguous piece of the text, starting at index `i`, and
   * everything cut away on either side is in `cs`.
   */
  lemma StripCharsInfix(s: string, cs: set<char>) returns (i: nat)
    ensures i + |StripChars(s, cs)| <= |s| && StripChars(s, cs) == s[i..i + |StripChars(s, cs)|]
    ensures forall k :: 0 <= k < i ==> s[k] in cs
    ensures forall k :: i + |StripChars(s, cs)| <= k < |s| ==> s[k] in cs
  {
    var left := StripLeft(s, cs);
    i := |s| - |left|;
    var r := StripRight(left, cs);
    assert r == left[..|r|] == s[i..i + |r|];
  }

  /** Stripping adds no character: what the text lacks, its strip lacks. */
  lemma StripCharsLacks(s: string, cs: set<char>, c: char)
    requires Lacks(s, c)
    ensures Lacks(StripChars(s, cs), c)
  {
    var r := StripChars(s, cs);
    var i := StripCharsInfix(s, cs);
    assert forall k :: 0 <= k < |r| ==> r[k] == s[i + k];
  }

  /** Python's argument-less `s.strip()`. */
  function Strip(s: string): (r: string)
    ensures |r| <= |s|
    ensures r == [] || (r[0] !in Whitespace && r[|r| - 1] !in Whitespace)
  {
    StripChars(s, Whitespace)
  }

  /** `[p.strip() for p in parts]`. */
  function StripEach(parts: seq<string>): (r: seq<string>)
    ensures |r| == |parts|
    ensures forall k :: 0 <= k < |parts| ==> r[k] == Strip(parts[k])
  {
    if |parts| == 0 then [] else [Strip(parts[0])] + StripEach(parts[1..])
  }

  /** Neither starts nor ends with a character in `cs`. */
  predicate Trimmed(s: string, cs: set<char>) {
    s == [] || (s[0] !in cs && s[|s| - 1] !in cs)
  }

  /** A string is its own strip exactly when it is trimmed. */
  lemma StripCharsIdentity(s: string, cs: set<char>)
    ensures StripChars(s, cs) == s <==> Trimmed(s, cs)
  {
    if s != [] && s[0] !in cs && s[|s| - 1] !in cs {
      assert StripLeft(s, cs) == s;
      assert StripRight(s, cs) == s;
    }
  }

  /** Stripping twice is stripping once. */
  lemma StripCharsIdempotent(s: string, cs: set<char>)
    ensures StripChars(StripChars(s, cs), cs) == StripChars(s, cs)
  {
    StripCharsIdentity(StripChars(s, cs), cs);
  }

  /** A stripped character in front does not survive the strip. */
  lemma StripCharsDropsLead(c: char, s: string, cs: set<char>)
    requires c in cs
    ensures StripChars([c] + s, cs) == StripChars(s, cs)
  {
    assert ([c] + s)[1..] == s;
  }

  /** A stripped character at the end does not survive the strip. */
  lemma StripCharsDropsTrail(s: string, c: char, cs: set<char>)
    requires c in cs
    ensures StripChars(s + [c], cs) == StripChars(s, cs)
  {
    if forall k :: 0 <= k < |s| ==> s[k] in cs {
      assert forall k :: 0 <= k < |s + [c]| ==> (s + [c])[k] in cs;
    } else {
      StripLeftAppend(s, c, cs);
      StripRightDropsTrail(StripLeft(s, cs), c, cs);
    }
  }

  /** `rstrip` removes a stripped character at the end. */
  lemma StripRightDropsTrail(s: string, c: char, cs: set<char>)
    requires c in cs
    ensures StripRight(s + [c], cs) == StripRight(s, cs)
  {
    assert (s + [c])[..|s|] == s;
  }

  /** Appending to a string that does not strip away entirely only lengthens its left strip. */
  lemma {:induction false} StripLeftAppend(s: string, c: char, cs: set<char>)
    requires exists k :: 0 <= k < |s| && s[k] !in cs
    ensures StripLeft(s + [c], cs) == StripLeft(s, cs) + [c]
  {
    if s[0] in cs {
      assert (s + [c])[1..] == s[1..] + [c];
      var k :| 0 <= k < |s| && s[k] !in cs;
      assert s[1..][k - 1] == s[k];
      StripLeftAppend(s[1..], c, cs);
    }
  }

  // ---------------------------------------------------------------------------
  // split

  /** The index of the first `c` in `s`, Python's `s.find(c)` with None for -1. */
  function FindFirst(s: string, c: char): (r: Option<nat>)
    ensures r.None? <==> Lacks(s, c)
    ensures r.Some? ==> r.value < |s| && s[r.value] == c && Lacks(s[..r.value], c)
  {
    if |s| == 0 then None
    else if s[0] == c then Some(0)
    else match FindFirst(s[1..], c)
      case None => None
      case Some(i) =>
        assert s[..i + 1] == [s[0]] + s[1..][..i];
        Some(i + 1)
  }

  /** `sep.join(parts)` for a one-character separator. */
  function Join(parts: seq<string>, sep: char): string {
    if |parts| == 0 then ""
    else if |parts| == 1 then parts[0]
    else parts[0] + [sep] + Join(parts[1..], sep)
  }

  /**
   * `s.split(sep, 1)`: the text before the first `sep` and, when there is one,
   * everything after it, further separators included.
   */
  function SplitOnce(s: string, sep: char): (r: seq<string>)
    ensures 1 <= |r| <= 2
    ensures |r| == 2 <==> !Lacks(s, sep)
    ensures Lacks(r[0], sep)
    ensures Join(r, sep) == s
  {
    match FindFirst(s, sep)
    case None => [s]
    case Some(i) =>
      var r := [s[..i], s[i + 1..]];
      assert r[1..] == [s[i + 1..]];
      assert s == s[..i] + [sep] + s[i + 1..];
      r
  }

  /** In `w + sep + ...` with a separator-free `w`, the first separator follows `w`. */
  lemma FindFirstAfterFree(w: string, sep: char, t: string)
    requires Lacks(w, sep) && |t| > |w| && t[..|w|] == w && t[|w|] == sep
    ensures FindFirst(t, sep) == Some(|w|)
  {
  }

  /** `s.split(sep)`: all pieces between separators, at least one. */
  function Split(s: string, sep: char): (r: seq<string>)
    ensures |r| >= 1
    decreases |s|
  {
    match FindFirst(s, sep)
    case None => [s]
    case Some(i) => [s[..i]] + Split(s[i + 1..], sep)
  }

  /** No piece holds the separator. */
  lemma {:induction false} SplitPiecesFree(s: string, sep: char)
    ensures forall k :: 0 <= k < |Split(s, sep)| ==> Lacks(Split(s, sep)[k], sep)
    decreases |s|
  {
    match FindFirst(s, sep)
    case None =>
    case Some(i) =>
      SplitPiecesFree(s[i + 1..], sep);
      assert Split(s, sep)[1..] == Split(s[i + 1..], sep);
  }

  /** Joining the pieces with the separator gives the text back. */
  lemma {:induction false} JoinSplit(s: string, sep: char)
    ensures Join(Split(s, sep), sep) == s
    decreases |s|
  {
    match FindFirst(s, sep)
    case None =>
    case Some(i) =>
      var rest := Split(s[i + 1..], sep);
      JoinSplit(s[i + 1..], sep);
      assert Split(s, sep)[1..] == rest;
      assert s == s[..i] + [sep] + s[i + 1..];
  }

  /** Splitting what was joined gives the parts back, when no part contains the separator. */
  lemma {:induction false} SplitJoin(parts: seq<string>, sep: char)
    requires |parts| >= 1
    requires forall k :: 0 <= k < |parts| ==> Lacks(parts[k], sep)
    ensures Split(Join(parts, sep), sep) == parts
  {
    if |parts| == 1 {
    } else {
      var s := Join(parts, sep);
      var tail := Join(parts[1..], sep);
      assert s == parts[0] + [sep] + tail;
      assert s[|parts[0]|] == sep;
      assert s[..|parts[0]|] == parts[0];
      FindFirstAfterFree(parts[0], sep, s);
      assert s[|parts[0]| + 1..] == tail;
      SplitJoin(parts[1..], sep);
      assert [parts[0]] + parts[1..] == parts;
    }
  }

  /** Where the text after the last `sep` starts: just past it, or 0 when there is none. */
  function LastCut(s: string, sep: char): (i: nat)
    ensures i <= |s|
    ensures forall k :: i <= k < |s| ==> s[k] != sep
    ensures i > 0 ==> s[i - 1] == sep
  {
    if |s| == 0 then 0
    else if s[|s| - 1] == sep then |s|
    else LastCut(s[..|s| - 1], sep)
  }

  /** The text after the last `sep` of `s`, or all of `s` when it has none. */
  function AfterLast(s: string, sep: char): (r: string)
    ensures Lacks(r, sep)
    ensures |r| <= |s| && s[|s| - |r|..] == r
    ensures |r| < |s| ==> s[|s| - |r| - 1] == sep
  {
    s[LastCut(s, sep)..]
  }

  /** Two separator-free suffixes that each start the string or follow a separator are the same. */
  lemma SeparatorFreeSuffixUnique(s: string, sep: char, a: string, b: string)
    requires |a| <= |s| && s[|s| - |a|..] == a && Lacks(a, sep) && (|a| < |s| ==> s[|s| - |a| - 1] == sep)
    requires |b| <= |s| && s[|s| - |b|..] == b && Lacks(b, sep) && (|b| < |s| ==> s[|s| - |b| - 1] == sep)
    ensures a == b
  {
  }

  /** A separator-free tail of the text after a separator is one of the whole text. */
  lemma SuffixAfterSeparator(s: string, sep: char, i: nat, a: string)
    requires i < |s| && s[i] == sep
    requires var rest := s[i + 1..];
      |a| <= |rest| && rest[|rest| - |a|..] == a && (|a| < |rest| ==> rest[|rest| - |a| - 1] == sep)
    ensures |a| <= |s| && s[|s| - |a|..] == a && (|a| < |s| ==> s[|s| - |a| - 1] == sep)
  {
    var rest := s[i + 1..];
    assert s[|s| - |a|..] == rest[|rest| - |a|..];
    if |a| < |rest| {
      assert s[|s| - |a| - 1] == rest[|rest| - |a| - 1];
    }
  }

  /** The last piece of `Split` is the text after the last separator. */
  lemma {:induction false} SplitLast(s: string, sep: char)
    ensures Split(s, sep)[|Split(s, sep)| - 1] == AfterLast(s, sep)
    decreases |s|
  {
    var f := FindFirst(s, sep);
    if f.None? {
      SplitLastNoSeparator(s, sep);
    } else {
      var i := f.value;
      SplitLast(s[i + 1..], sep);
      SplitLastStep(s, sep, i);
    }
  }

  lemma SplitLastNoSeparator(s: string, sep: char)
    requires Lacks(s, sep)
    ensures Split(s, sep)[|Split(s, sep)| - 1] == AfterLast(s, sep)
  {
    assert Split(s, sep) == [s];
    assert s[|s| - |s|..] == s;
    SeparatorFreeSuffixUnique(s, sep, s, AfterLast(s, sep));
  }

  lemma SplitLastStep(s: string, sep: char, i: nat)
    requires FindFirst(s, sep) == Some(i)
    requires var rest := s[i + 1..]; Split(rest, sep)[|Split(rest, sep)| - 1] == AfterLast(rest, sep)
    ensures Split(s, sep)[|Split(s, sep)| - 1] == AfterLast(s, sep)
  {
    SplitDropsFirstPiece(s, sep, i);
    AfterLastAfterSeparator(s, sep, i);
  }

  lemma SplitDropsFirstPiece(s: string, sep: char, i: nat)
    requires FindFirst(s, sep) == Some(i)
    ensures Split(s, sep)[|Split(s, sep)| - 1] == Split(s[i + 1..], sep)[|Split(s[i + 1..], sep)| - 1]
  {
    SplitStep(s, sep, i);
    LastOfCons(s[..i], Split(s[i + 1..], sep));
  }

  /** One step of `Split`: the piece before the first separator, then the split of the rest. */
  lemma SplitStep(s: string, sep: char, i: nat)
    requires FindFirst(s, sep) == Some(i)
    ensures Split(s, sep) == [s[..i]] + Split(s[i + 1..], sep)
  {
  }

  /** Putting an element in front does not change the last one. */
  lemma LastOfCons<T>(x: T, q: seq<T>)
    requires |q| > 0
    ensures ([x] + q)[|[x] + q| - 1] == q[|q| - 1]
  {
  }

  /** The text after the last separator is the same whether or not the first separator is cut off. */
  lemma AfterLastAfterSeparator(s: string, sep: char, i: nat)
    requires i < |s| && s[i] == sep
    ensures AfterLast(s[i + 1..], sep) == AfterLast(s, sep)
  {
    var a := AfterLast(s[i + 1..], sep);
    SuffixAfterSeparator(s, sep, i, a);
    SeparatorFreeSuffixUnique(s, sep, a, AfterLast(s, sep));
  }

  // ---------------------------------------------------------------------------
  // lower, replace

  /**
   * `str.lower()` on one character, for ASCII and the Cyrillic capitals
   * U+0400..U+042F; every other character is left as it is.
   */
  function LowerChar(ch: char): char {
    if 'A' <= ch <= 'Z' then (ch as int + 32) as char
    else if '\U{410}' <= ch <= '\U{42F}' then (ch as int + 32) as char
    else if '\U{400}' <= ch <= '\U{40F}' then (ch as int + 80) as char
    else ch
  }

  predicate IsUpper(ch: char) {
    'A' <= ch <= 'Z' || '\U{400}' <= ch <= '\U{42F}'
  }

  /** `s.lower()`. */
  function Lower(s: string): (r: string)
    ensures |r| == |s|
    ensures forall k :: 0 <= k < |s| ==> r[k] == LowerChar(s[k])
  {
    seq(|s|, k requires 0 <= k < |s| => LowerChar(s[k]))
  }

  /** Lower-casing leaves no capital behind, so doing it twice changes nothing. */
  lemma LowerIdempotent(s: string)
    ensures forall k :: 0 <= k < |s| ==> !IsUpper(Lower(s)[k])
    ensures Lower(Lower(s)) == Lower(s)
  {
  }

  /** `s.replace(a, b)` for single characters: each `a` becomes `b`, nothing else moves. */
  function Replace(s: string, a: char, b: char): (r: string)
    ensures |r| == |s|
    ensures forall k :: 0 <= k < |s| ==> r[k] == (if s[k] == a then b else s[k])
  {
    seq(|s|, k requires 0 <= k < |s| => if s[k] == a then b else s[k])
  }

  // ---------------------------------------------------------------------------
  // decimal rendering of a count, as an f-string does it

  function DigitChar(d: nat): char
    requires d < 10
  {
    ('0' as int + d) as char
  }

  predicate IsDigit(ch: char) {
    '0' <= ch <= '9'
  }

  /** `str(n)` for a non-negative integer. */
  function Decimal(n: nat): (r: string)
    ensures |r| >= 1
    ensures forall k :: 0 <= k < |r| ==> IsDigit(r[k])
    ensures r[0] == '0' ==> n == 0
  {
    if n < 10 then [DigitChar(n)] else Decimal(n / 10) + [DigitChar(n % 10)]
  }

  /** `int(s)` for a string of decimal digits. */
  function ParseDecimal(s: string): nat
    requires forall k :: 0 <= k < |s| ==> IsDigit(s[k])
  {
    if |s| == 0 then 0
    else
      assert IsDigit(s[|s| - 1]);
      10 * ParseDecimal(s[..|s| - 1]) + (s[|s| - 1] as int - '0' as int)
  }

  /** Reading back the rendered count gives the count. */
  lemma {:induction false} DecimalRoundTrip(n: nat)
    ensures ParseDecimal(Decimal(n)) == n
  {
    if n >= 10 {
      DecimalRoundTrip(n / 10);
      var d := Decimal(n);
      assert d[..|d| - 1] == Decimal(n / 10);
    }
  }
}

=== FILE: utils.dfy ===
/**
 * `weather/utils.py`: the cached geocoder with its Open-Meteo then Nominatim
 * fallback, the country read out of a Nominatim `display_name`, and the
 * second weather formatter.
 */
module Utils {
  import opened Wrappers
  import opened Text
  import opened Geocoding
  import opened Forecast
  import Seqs

  /**
   * `'city_coords_' + quote(safe_name)`. `urllib.parse.quote` is a parameter:
   * any deterministic function of the safe name.
   */
  function CacheKey(name: string, quote: string -> string): (key: string)
    ensures |key| >= |CacheKeyPrefix| && key[..|CacheKeyPrefix|] == CacheKeyPrefix
    ensures key[|CacheKeyPrefix|..] == quote(SafeName(name))
  {
    CacheKeyPrefix + quote(SafeName(name))
  }

  /** Names that differ only in letter case share a cache key. */
  lemma CacheKeyIgnoresCase(a: string, b: string, quote: string -> string)
    requires Lower(a) == Lower(b)
    ensures CacheKey(a, quote) == CacheKey(b, quote)
  {
  }

  /** Lower-casing the name first does not change its key. */
  lemma CacheKeyOfLower(name: string, quote: string -> string)
    ensures CacheKey(Lower(name), quote) == CacheKey(name, quote)
  {
    LowerIdempotent(name);
  }

  /**
   * The name is not trimmed before it becomes a key: with a one-to-one
   * `quote`, as URL quoting is, " Paris" and "Paris" are cached apart.
   */
  lemma CacheKeyNotTrimmed(quote: string -> string)
    requires forall a, b :: quote(a) == quote(b) ==> a == b
    ensures CacheKey(" Paris", quote) != CacheKey("Paris", quote)
  {
    assert |SafeName(" Paris")| != |SafeName("Paris")|;
    assert SafeName(" Paris") != SafeName("Paris");
    var k1, k2 := CacheKey(" Paris", quote), CacheKey("Paris", quote);
    assert k1[|CacheKeyPrefix|..] != k2[|CacheKeyPrefix|..];
  }

  /**
   * `get_city_coordinates`: a cached record is returned without calling a
   * provider; otherwise Open-Meteo is asked, Nominatim only when Open-Meteo
   * has nothing, and the first answer is cached for a day under the key.
   * With no answer the result is None and the cache is not written.
   */
  function GetCityCoordinates(cache: Cache, name: string, quote: string -> string,
                              openMeteo: Geocoder, nominatim: Geocoder): (r: Resolution)
    ensures var key := CacheKey(name, quote);
      && (key in cache ==>
            r.coords == Some(cache[key].value) && r.cache == cache && r.consulted == 0)
      && (key !in cache && openMeteo(name).Some? ==>
            && r.coords == openMeteo(name) && r.consulted == 1
            && r.cache == cache[key := Entry(openMeteo(name).value, CoordsTtl)])
      && (key !in cache && openMeteo(name).None? && nominatim(name).Some? ==>
            && r.coords == nominatim(name) && r.consulted == 2
            && r.cache == cache[key := Entry(nominatim(name).value, CoordsTtl)])
      && (key !in cache && openMeteo(name).None? && nominatim(name).None? ==>
            r.coords == None && r.cache == cache && r.consulted == 2)
  {
    var providers := [openMeteo, nominatim];
    assert providers[1] == nominatim;
    Resolve(cache, CacheKey(name, quote), name, providers)
  }

  /**
   * `extract_country_from_nominatim`: reads `display_name`, '' when the field
   * is missing, and takes the country from it.
   */
  function ExtractCountryFromNominatim(displayName: Option<string>): (country: string)
    ensures Lacks(country, ',')
  {
    CountryOfDisplayNameSpec(displayName.GetOr(""));
    CountryOfDisplayName(displayName.GetOr(""))
  }

  /** `[part.strip() for part in display_name.split(',')]`, then the last part if any. */
  function CountryOfDisplayName(displayName: string): (country: string)
    ensures Lacks(country, ',')
    ensures country == [] || (country[0] !in Whitespace && country[|country| - 1] !in Whitespace)
  {
    var pieces := Split(displayName, ',');
    var parts := StripEach(pieces);
    SplitPiecesFree(displayName, ',');
    StripCharsLacks(pieces[|pieces| - 1], Whitespace, ',');
    if |parts| > 0 then parts[|parts| - 1] else ""
  }

  /**
   * The country is the trimmed text after the last comma of `display_name`
   * (all of it when there is no comma), so it holds no comma; a missing or
   * empty field gives ''. `split` never returns an empty list, so the
   * `else ''` branch of `if parts` is never taken.
   */
  lemma ExtractCountrySpec(displayName: Option<string>)
    ensures displayName.None? ==> ExtractCountryFromNominatim(displayName) == ""
    ensures displayName == Some("") ==> ExtractCountryFromNominatim(displayName) == ""
    ensures ExtractCountryFromNominatim(displayName) == Strip(AfterLast(displayName.GetOr(""), ','))
    ensures Lacks(ExtractCountryFromNominatim(displayName), ',')
  {
    CountryOfDisplayNameSpec(displayName.GetOr(""));
  }

  lemma CountryOfDisplayNameSpec(dn: string)
    ensures CountryOfDisplayName(dn) == Strip(AfterLast(dn, ','))
    ensures Lacks(CountryOfDisplayName(dn), ',')
  {
    var pieces := Split(dn, ',');
    assert CountryOfDisplayName(dn) == Strip(pieces[|pieces| - 1]);
    SplitLast(dn, ',');
    StripCharsLacks(AfterLast(dn, ','), Whitespace, ',');
  }

  /** The fallback for an unknown weather code in this formatter. */
  const UnknownWeather: WeatherInfo := WeatherInfo("Неизвестно", UnknownIcon)

  datatype HourlyView = HourlyView(time: seq<string>, temperature: seq<real>, precipitation: seq<real>)

  datatype Formatted = Formatted(city: string, country: string, current: CurrentView, hourly: HourlyView)

  /**
   * `format_weather_data` of utils.py: city and country passed through
   * (country defaults to ''), the code looked up with the 'Неизвестно'
   * fallback, and the first 24 hourly times, temperatures and precipitation
   * probabilities (none when the payload has no such series).
   */
  function FormatWeatherData(data: RawForecast, cityName: string, country: Option<string>,
                             codes: WeatherCodes): (f: Formatted)
    ensures f.city == cityName
    ensures f.country == (if country.Some? then country.value else "")
    ensures f.current.time == data.current.time
    ensures f.current.temperature == data.current.temperature
    ensures f.current.windspeed == data.current.windspeed
    ensures data.current.weathercode in codes ==>
      WeatherInfo(f.current.desc, f.current.icon) == codes[data.current.weathercode]
    ensures data.current.weathercode !in codes ==>
      f.current.desc == "Неизвестно" && f.current.icon == "❓"
    ensures f.hourly.time <= data.hourly.time
    ensures |f.hourly.time| == Seqs.Min(|data.hourly.time|, HourlyLimit)
    ensures f.hourly.temperature <= data.hourly.temperature
    ensures |f.hourly.temperature| == Seqs.Min(|data.hourly.temperature|, HourlyLimit)
    ensures data.hourly.precipitation.None? ==> f.hourly.precipitation == []
    ensures data.hourly.precipitation.Some? ==>
      && f.hourly.precipitation <= data.hourly.precipitation.value
      && |f.hourly.precipitation| == Seqs.Min(|data.hourly.precipitation.value|, HourlyLimit)
  {
    Formatted(
      cityName,
      country.GetOr(""),
      ShowCurrent(data.current, codes, UnknownWeather),
      HourlyView(
        Day(data.hourly.time),
        Day(data.hourly.temperature),
        Day(data.hourly.precipitation.GetOr([]))))
  }
}

=== FILE: views.dfy ===
/**
 * `weather/views.py` without its HTTP plumbing: reading and splitting the
 * city input, the single-provider cached geocoder the view actually calls,
 * the first weather formatter, the per-session search history, the
 * popularity statistics and the autocomplete endpoint.
 */
module Views {
  import opened Wrappers
  import opened Text
  import Seqs
  import Ranking
  import opened Geocoding
  import opened Forecast

  // ===========================================================================
  // get_weather: reading and splitting the input

  datatype HttpMethod = Post | Get | OtherMethod

  /** The request as `get_weather` sees it: its HTTP method (`verb`) and its `city` field, if sent. */
  datatype Request = Request(verb: HttpMethod, city: Option<string>)

  /**
   * The raw city text: POST reads the form field with '' as default, GET
   * reads the query field only when present; anything else is None, which
   * the view answers with a redirect to the home page.
   */
  function CityField(req: Request): (raw: Option<string>)
    ensures req.verb == Post ==> raw.Some? && (req.city.Some? ==> raw == req.city) && (req.city.None? ==> raw.value == [])
    ensures req.verb == Get ==> raw == req.city
    ensures req.verb == OtherMethod ==> raw.None?
  {
    match req.verb
    case Post => Some(if req.city.Some? then req.city.value else "")
    case Get => req.city
    case OtherMethod => None
  }

  /** The two halves of the input: the city sent to the geocoder and the country override. */
  datatype CityQuery = CityQuery(city: string, country: string)

  /**
   * `[part.strip() for part in s.split(sep, 1)]` read as a query: the city
   * is the stripped text before the first separator, the country the
   * stripped rest (which may hold further separators), or '' without one.
   */
  function SplitQuery(s: string, sep: char): (q: CityQuery)
    ensures Lacks(q.city, sep)
    ensures match FindFirst(s, sep)
      case None => q == CityQuery(Strip(s), [])
      case Some(i) => q == CityQuery(Strip(s[..i]), Strip(s[i + 1..]))
  {
    var pieces := SplitOnce(s, sep);
    StripCharsLacks(pieces[0], Whitespace, sep);
    CityQuery(Strip(pieces[0]), if |pieces| > 1 then Strip(pieces[1]) else [])
  }

  /**
   * The input is stripped and refused when nothing is left; otherwise it is
   * split at the first comma (see `ParseCityInputSpec`).
   */
  function ParseCityInput(raw: string): (q: Option<CityQuery>)
    ensures q.None? <==> forall k :: 0 <= k < |raw| ==> raw[k] in Whitespace
    ensures q.Some? ==> Lacks(q.value.city, ',')
  {
    var cityName := Strip(raw);
    if |cityName| == 0 then None else Some(SplitQuery(cityName, ','))
  }

  /** Splitting an already stripped text: the whole text is the city when it has no separator. */
  lemma SplitStrippedQuery(raw: string, sep: char)
    ensures var s := Strip(raw); var q := SplitQuery(s, sep);
      match FindFirst(s, sep)
      case None => q == CityQuery(s, [])
      case Some(i) => q == CityQuery(Strip(s[..i]), Strip(s[i + 1..]))
  {
    var s := Strip(raw);
    var q := SplitQuery(s, sep);
    if FindFirst(s, sep).None? {
      assert q == CityQuery(Strip(s), []);
      StripCharsIdempotent(raw, Whitespace);
      assert Strip(s) == s;
    }
  }

  /**
   * For input that is not blank, the stripped text without a comma is the
   * city with no country; with one, the city is the stripped text before
   * the first comma and the country the stripped text after it.
   */
  lemma ParseCityInputSpec(raw: string)
    requires exists k :: 0 <= k < |raw| && raw[k] !in Whitespace
    ensures var s := Strip(raw); var q := ParseCityInput(raw);
      && q.Some?
      && match FindFirst(s, ',')
         case None => q.value == CityQuery(s, "")
         case Some(i) => q.value == CityQuery(Strip(s[..i]), Strip(s[i + 1..]))
  {
    SplitStrippedQuery(raw, ',');
  }

  /** `if country: coords['country'] = country`: a non-empty override wins, '' changes nothing. */
  function ApplyCountryOverride(coords: Coords, country: string): (c: Coords)
    ensures c.latitude == coords.latitude && c.longitude == coords.longitude
    ensures |country| > 0 ==> c.country == country
    ensures |country| == 0 ==> c == coords
  {
    if |country| > 0 then coords.(country := country) else coords
  }

  // ===========================================================================
  // format_weather_data (views.py variant)

  /** The fallback for an unknown weather code in this formatter. */
  const UnknownWeather: WeatherInfo := WeatherInfo("Unknown", UnknownIcon)

  datatype HourlyView = HourlyView(time: seq<string>, temperature: seq<real>, humidity: seq<real>)

  datatype Formatted = Formatted(city: string, country: string, current: CurrentView, hourly: HourlyView)

  /**
   * City and country pass through unchanged; an unknown code reads
   * 'Unknown' with '❓', a known one exactly its table entry; the hourly
   * times, temperatures and humidities are the first min(24, n) values of
   * their series, in order.
   */
  function FormatWeatherData(data: RawForecast, cityName: string, country: string,
                             codes: WeatherCodes): (f: Formatted)
    ensures f.city == cityName && f.country == country
    ensures f.current.time == data.current.time
    ensures f.current.temperature == data.current.temperature
    ensures f.current.windspeed == data.current.windspeed
    ensures data.current.weathercode in codes ==>
      WeatherInfo(f.current.desc, f.current.icon) == codes[data.current.weathercode]
    ensures data.current.weathercode !in codes ==>
      f.current.desc == "Unknown" && f.current.icon == "❓"
    ensures f.hourly.time <= data.hourly.time
    ensures |f.hourly.time| == Seqs.Min(|data.hourly.time|, HourlyLimit)
    ensures f.hourly.temperature <= data.hourly.temperature
    ensures |f.hourly.temperature| == Seqs.Min(|data.hourly.temperature|, HourlyLimit)
    ensures f.hourly.humidity <= data.hourly.humidity
    ensures |f.hourly.humidity| == Seqs.Min(|data.hourly.humidity|, HourlyLimit)
  {
    Formatted(
      cityName,
      country,
      ShowCurrent(data.current, codes, UnknownWeather),
      HourlyView(Day(data.hourly.time), Day(data.hourly.temperature), Day(data.hourly.humidity)))
  }

  // ===========================================================================
  // get_city_coordinates (views.py variant: Open-Meteo only, no URL quoting)

  /** `'city_coords_' + city_name.lower().replace(' ', '_')`. */
  function CacheKey(name: string): (key: string)
    ensures |key| >= |CacheKeyPrefix| && key[..|CacheKeyPrefix|] == CacheKeyPrefix
    ensures key[|CacheKeyPrefix|..] == SafeName(name)
  {
    CacheKeyPrefix + SafeName(name)
  }

  /** Two names share a cache entry exactly when their lower-cased, underscored forms agree. */
  lemma CacheKeyShared(a: string, b: string)
    ensures CacheKey(a) == CacheKey(b) <==> SafeName(a) == SafeName(b)
  {
    if CacheKey(a) == CacheKey(b) {
      assert CacheKey(a)[|CacheKeyPrefix|..] == SafeName(a);
      assert CacheKey(b)[|CacheKeyPrefix|..] == SafeName(b);
    }
  }

  /**
   * The view's geocoder: a cached record is returned without a request;
   * otherwise one Open-Meteo lookup, whose answer is cached for a day; no
   * answer gives None and leaves the cache alone.
   */
  function GetCityCoordinates(cache: Cache, name: string, openMeteo: Geocoder): (r: Resolution)
    ensures CacheKey(name) in cache ==>
      r.coords == Some(cache[CacheKey(name)].value) && r.cache == cache && r.consulted == 0
    ensures CacheKey(name) !in cache ==> r.consulted == 1 && r.coords == openMeteo(name)
    ensures CacheKey(name) !in cache && openMeteo(name).Some? ==>
      r.cache == cache[CacheKey(name) := Entry(openMeteo(name).value, CoordsTtl)]
    ensures CacheKey(name) !in cache && openMeteo(name).None? ==> r.cache == cache
  {
    Resolve(cache, CacheKey(name), name, [openMeteo])
  }

  // ===========================================================================
  // update_search_history

  /** One entry of the session's `search_history`. */
  datatype HistoryItem = HistoryItem(city: string, timestamp: string)

  /** `history[:10]`: the history never grows past ten entries. */
  const HistoryLimit: nat := 10

  /** `[item for item in history if item['city'] != city]`. */
  function WithoutCity(history: seq<HistoryItem>, city: string): (r: seq<HistoryItem>)
    ensures forall k :: 0 <= k < |r| ==> r[k].city != city
    ensures forall k :: 0 <= k < |history| && history[k].city != city ==> history[k] in r
    ensures forall x :: x in r ==> x in history
    ensures Seqs.IsSubsequence(r, history)
  {
    if |history| == 0 then []
    else if history[0].city == city then WithoutCity(history[1..], city)
    else
      var rest := WithoutCity(history[1..], city);
      assert ([history[0]] + rest)[1..] == rest;
      [history[0]] + rest
  }

  /**
   * Every entry for another city is kept as many times as it occurs, and
   * every entry for the city is gone.
   */
  lemma {:induction false} WithoutCityOccurrences(history: seq<HistoryItem>, city: string, x: HistoryItem)
    ensures multiset(WithoutCity(history, city))[x] == (if x.city == city then 0 else multiset(history)[x])
  {
    if |history| > 0 {
      WithoutCityOccurrences(history[1..], city, x);
      assert history == [history[0]] + history[1..];
      if history[0].city != city {
        var rest := WithoutCity(history[1..], city);
        assert WithoutCity(history, city) == [history[0]] + rest;
      }
    }
  }

  /**
   * The new search goes first with its timestamp, earlier searches of the
   * same city are dropped, the others keep their order, and only ten
   * entries are kept.
   */
  function UpdateSearchHistory(history: seq<HistoryItem>, city: string, now: string): (h: seq<HistoryItem>)
    ensures 1 <= |h| <= HistoryLimit
    ensures h[0] == HistoryItem(city, now)
    ensures forall k :: 1 <= k < |h| ==> h[k].city != city && h[k] in history
    ensures Seqs.IsSubsequence(h[1..], history)
    ensures h[1..] == Seqs.Take(WithoutCity(history, city), HistoryLimit - 1)
  {
    var w := WithoutCity(history, city);
    var h := Seqs.Take([HistoryItem(city, now)] + w, HistoryLimit);
    assert h[1..] == Seqs.Take(w, HistoryLimit - 1);
    assert forall k :: 1 <= k < |h| ==> h[k] == w[k - 1];
    Seqs.SubsequenceOfTake(w, history, HistoryLimit - 1);
    h
  }

  predicate DistinctCities(history: seq<HistoryItem>) {
    forall i, j :: 0 <= i < j < |history| ==> history[i].city != history[j].city
  }

  /** Filtering keeps a history free of duplicate cities. */
  lemma {:induction false} WithoutCityDistinct(history: seq<HistoryItem>, city: string)
    requires DistinctCities(history)
    ensures DistinctCities(WithoutCity(history, city))
  {
    if |history| > 0 {
      WithoutCityDistinct(history[1..], city);
      var rest := WithoutCity(history[1..], city);
      forall x | x in rest ensures x.city != history[0].city {
        var k :| 0 <= k < |history[1..]| && history[1..][k] == x;
        assert history[k + 1] == x;
      }
    }
  }

  /** Every update keeps the history free of duplicate cities. */
  lemma UpdateKeepsCitiesDistinct(history: seq<HistoryItem>, city: string, now: string)
    requires DistinctCities(history)
    ensures DistinctCities(UpdateSearchHistory(history, city, now))
  {
    WithoutCityDistinct(history, city);
    var h := UpdateSearchHistory(history, city, now);
    var w := WithoutCity(history, city);
    forall i, j | 0 <= i < j < |h| ensures h[i].city != h[j].city {
      if i > 0 {
        assert h[i] == w[i - 1] && h[j] == w[j - 1];
      }
    }
  }

  /** Removing a city that is not there changes nothing. */
  lemma {:induction false} WithoutAbsentCity(history: seq<HistoryItem>, city: string)
    requires forall k :: 0 <= k < |history| ==> history[k].city != city
    ensures WithoutCity(history, city) == history
  {
    if |history| > 0 {
      WithoutAbsentCity(history[1..], city);
      assert [history[0]] + history[1..] == history;
    }
  }

  /** Searching the same city twice with the same timestamp is searching it once. */
  lemma UpdateIdempotent(history: seq<HistoryItem>, city: string, now: string)
    ensures UpdateSearchHistory(UpdateSearchHistory(history, city, now), city, now)
         == UpdateSearchHistory(history, city, now)
  {
    var h := UpdateSearchHistory(history, city, now);
    assert h == [h[0]] + h[1..];
    WithoutAbsentCity(h[1..], city);
    assert WithoutCity(h, city) == h[1..];
  }

  /** `f"{city},{country}".strip(', ')`: the label a search is remembered by. */
  function HistoryLabel(city: string, country: string): (shown: string)
    ensures |shown| <= |city| + 1 + |country|
    ensures shown == [] || (shown[0] !in {',', ' '} && shown[|shown| - 1] !in {',', ' '})
  {
    StripChars(city + "," + country, {',', ' '})
  }

  /**
   * For a city trimmed of commas and spaces, the label is the city alone
   * without a country, and "city,country" with a country so trimmed.
   */
  lemma HistoryLabelClean(city: string, country: string)
    requires |city| > 0 && Trimmed(city, {',', ' '})
    requires Trimmed(country, {',', ' '})
    ensures |country| == 0 ==> HistoryLabel(city, country) == city
    ensures |country| > 0 ==> HistoryLabel(city, country) == city + "," + country
  {
    var cs: set<char> := {',', ' '};
    var s := city + "," + country;
    if |country| == 0 {
      assert s == city + [','];
      StripCharsDropsTrail(city, ',', cs);
      StripCharsIdentity(city, cs);
    } else {
      assert s[0] == city[0] && s[|s| - 1] == country[|country| - 1];
      StripCharsIdentity(s, cs);
    }
  }

  // ===========================================================================
  // get_weather: the whole request

  const EmptyCityMessage: string := "Please enter a city name"
  const FetchErrorMessage: string := "Error fetching weather data"

  /** f"City '{city}' not found". */
  function NotFoundMessage(city: string): (msg: string)
    ensures |msg| == |city| + 17 && msg[6..|msg| - 11] == city
    ensures msg[..6] == "City '" && msg[|msg| - 11..] == "' not found"
  {
    "City '" + city + "' not found"
  }

  /** What the view answers: a redirect home, the form with an error, or the result page. */
  datatype Page = RedirectHome | ErrorPage(message: string) | ResultPage(weather: Formatted)

  /**
   * The page, the shared cache and the session history after the request,
   * and the name handed to the geocoder, if any.
   */
  datatype Outcome = Outcome(page: Page, cache: Cache, history: seq<HistoryItem>, geocoded: Option<string>)

  /** `fetch_weather_data(latitude, longitude)`: the payload, or None on any request error. */
  type Fetcher = (real, real) -> Option<RawForecast>

  /**
   * `get_weather`: read the field, refuse empty input, split off the
   * country, then answer for the query (`WeatherFor`).
   */
  function GetWeather(req: Request, cache: Cache, history: seq<HistoryItem>, openMeteo: Geocoder,
                      fetch: Fetcher, codes: WeatherCodes, now: string): (o: Outcome)
    ensures CityField(req).None? ==> o == Outcome(RedirectHome, cache, history, None)
    ensures CityField(req).Some? && ParseCityInput(CityField(req).value).None? ==>
      o == Outcome(ErrorPage(EmptyCityMessage), cache, history, None)
    ensures CityField(req).Some? && ParseCityInput(CityField(req).value).Some? ==>
      o == WeatherFor(ParseCityInput(CityField(req).value).value, cache, history, openMeteo, fetch, codes, now)
    ensures o.page.ResultPage? ==> o.geocoded.Some? && o.page.weather.city == o.geocoded.value
  {
    match CityField(req)
    case None => Outcome(RedirectHome, cache, history, None)
    case Some(raw) =>
      match ParseCityInput(raw)
      case None => Outcome(ErrorPage(EmptyCityMessage), cache, history, None)
      case Some(q) => WeatherFor(q, cache, history, openMeteo, fetch, codes, now)
  }

  /**
   * The view once the input is split: geocode the city (through the
   * cache), apply the country override, fetch and format the forecast, and
   * remember the search in the session. Only a result page touches the
   * history; a city the geocoder does not know gives the not-found page; a
   * failed fetch gives the fetch error.
   */
  function WeatherFor(q: CityQuery, cache: Cache, history: seq<HistoryItem>, openMeteo: Geocoder,
                      fetch: Fetcher, codes: WeatherCodes, now: string): (o: Outcome)
    ensures o.geocoded == Some(q.city)
    ensures o.cache == GetCityCoordinates(cache, q.city, openMeteo).cache
    ensures !o.page.RedirectHome?
    ensures o.page.ErrorPage? ==> o.history == history
    ensures o.page.ResultPage? ==> o.page.weather.city == q.city
    ensures GetCityCoordinates(cache, q.city, openMeteo).coords.None? ==>
      o.page == ErrorPage(NotFoundMessage(q.city))
    ensures GetCityCoordinates(cache, q.city, openMeteo).coords.Some? ==>
      var c := ApplyCountryOverride(GetCityCoordinates(cache, q.city, openMeteo).coords.value, q.country);
      && (fetch(c.latitude, c.longitude).None? ==> o.page == ErrorPage(FetchErrorMessage))
      && (fetch(c.latitude, c.longitude).Some? ==>
            && o.page == ResultPage(FormatWeatherData(fetch(c.latitude, c.longitude).value, q.city, c.country, codes))
            && o.history == UpdateSearchHistory(history, HistoryLabel(q.city, c.country), now))
  {
    var lookup := GetCityCoordinates(cache, q.city, openMeteo);
    match lookup.coords
    case None => Outcome(ErrorPage(NotFoundMessage(q.city)), lookup.cache, history, Some(q.city))
    case Some(found) =>
      var c := ApplyCountryOverride(found, q.country);
      match fetch(c.latitude, c.longitude)
      case None => Outcome(ErrorPage(FetchErrorMessage), lookup.cache, history, Some(q.city))
      case Some(data) =>
        var weather := FormatWeatherData(data, q.city, c.country, codes);
        var h := UpdateSearchHistory(history, HistoryLabel(q.city, c.country), now);
        Outcome(ResultPage(weather), lookup.cache, h, Some(q.city))
  }

  /**
   * With a non-empty country typed, a result page shows the queried city
   * with that country, whatever country the geocoder reported.
   */
  lemma WeatherForCountry(q: CityQuery, cache: Cache, history: seq<HistoryItem>, openMeteo: Geocoder,
                          fetch: Fetcher, codes: WeatherCodes, now: string)
    requires |q.country| > 0
    ensures var o := WeatherFor(q, cache, history, openMeteo, fetch, codes, now);
      o.page.ResultPage? ==> o.page.weather.city == q.city && o.page.weather.country == q.country
  {
    var o := WeatherFor(q, cache, history, openMeteo, fetch, codes, now);
    var lookup := GetCityCoordinates(cache, q.city, openMeteo);
    if o.page.ResultPage? {
      assert lookup.coords.Some?;
      var c := ApplyCountryOverride(lookup.coords.value, q.country);
      assert fetch(c.latitude, c.longitude).Some?;
      var f := FormatWeatherData(fetch(c.latitude, c.longitude).value, q.city, c.country, codes);
      assert o.page.weather == f;
    }
  }

  /**
   * Empty or blank input is refused before any lookup: the error page,
   * with the cache and the history untouched.
   */
  lemma BlankInputRefused(raw: string, cache: Cache, history: seq<HistoryItem>, openMeteo: Geocoder,
                          fetch: Fetcher, codes: WeatherCodes, now: string)
    requires forall k :: 0 <= k < |raw| ==> raw[k] in Whitespace
    ensures GetWeather(Request(Post, Some(raw)), cache, history, openMeteo, fetch, codes, now)
         == Outcome(ErrorPage("Please enter a city name"), cache, history, None)
  {
  }

  /**
   * Whatever the input, the city before the comma is what gets geocoded;
   * when a non-empty country follows the comma, a result page shows the
   * city with that country rather than the geocoder's.
   */
  lemma CountryOverrideWins(raw: string, cache: Cache, history: seq<HistoryItem>,
                            openMeteo: Geocoder, fetch: Fetcher, codes: WeatherCodes, now: string)
    ensures var o := GetWeather(Request(Post, Some(raw)), cache, history, openMeteo, fetch, codes, now);
      match ParseCityInput(raw)
      case None => true
      case Some(q) =>
        && o.geocoded == Some(q.city)
        && (|q.country| > 0 && o.page.ResultPage? ==>
              o.page.weather.city == q.city && o.page.weather.country == q.country)
  {
    assert CityField(Request(Post, Some(raw))) == Some(raw);
    match ParseCityInput(raw)
    case None =>
    case Some(q) =>
      if |q.country| > 0 {
        WeatherForCountry(q, cache, history, openMeteo, fetch, codes, now);
      }
  }

  /**
   * A suggestion typed into the form ("Paris, France"): the geocoder is
   * asked for the place name alone, and a result page shows that name with
   * the suggested country, whatever country the geocoder reported.
   */
  lemma SuggestionSearched(name: string, country: string, cache: Cache, history: seq<HistoryItem>,
                           openMeteo: Geocoder, fetch: Fetcher, codes: WeatherCodes, now: string)
    requires |name| > 0 && Lacks(name, ',') && Trimmed(name, Whitespace)
    requires |country| > 0 && Trimmed(country, Whitespace)
    ensures var o := GetWeather(Request(Post, Some(Suggestion(name, country))), cache, history, openMeteo, fetch, codes, now);
      && o.geocoded == Some(name)
      && (o.page.ResultPage? ==> o.page.weather.city == name && o.page.weather.country == country)
  {
    SuggestionRoundTrip(name, country);
    CountryOverrideWins(Suggestion(name, country), cache, history, openMeteo, fetch, codes, now);
  }

  // ===========================================================================
  // search_stats_api

  /** How often `city` occurs in the history. */
  function CountCity(history: seq<HistoryItem>, city: string): nat {
    if |history| == 0 then 0
    else CountCity(history[..|history| - 1], city) + (if history[|history| - 1].city == city then 1 else 0)
  }

  /** One `(city, count)` item of the statistics. */
  datatype CityCount = CityCount(city: string, count: nat)

  function Names(stats: seq<CityCount>): (names: seq<string>)
    ensures |names| == |stats|
    ensures forall i :: 0 <= i < |stats| ==> names[i] == stats[i].city
  {
    seq(|stats|, i requires 0 <= i < |stats| => stats[i].city)
  }

  /** `stats[city] += 1` on a `defaultdict(int)`, whose items keep insertion order. */
  function Bump(stats: seq<CityCount>, city: string): (r: seq<CityCount>)
    ensures city in Names(stats) ==> |r| == |stats| && Names(r) == Names(stats)
    ensures city !in Names(stats) ==> Names(r) == Names(stats) + [city] && r[|stats|] == CityCount(city, 1)
    ensures forall i :: 0 <= i < |stats| ==>
      r[i].count == stats[i].count + (if stats[i].city == city then 1 else 0)
  {
    if city in Names(stats) then
      seq(|stats|, i requires 0 <= i < |stats| =>
        if stats[i].city == city then CityCount(city, stats[i].count + 1) else stats[i])
    else stats + [CityCount(city, 1)]
  }

  predicate DistinctNames(stats: seq<CityCount>) {
    forall i, j :: 0 <= i < j < |stats| ==> stats[i].city != stats[j].city
  }

  /** The `defaultdict` after the loop over the history. */
  function Tally(history: seq<HistoryItem>): (stats: seq<CityCount>)
    ensures |stats| <= |history|
  {
    if |history| == 0 then []
    else Bump(Tally(history[..|history| - 1]), history[|history| - 1].city)
  }

  /** Bumping an item keeps the names already tallied in place. */
  lemma BumpKeepsNames(stats: seq<CityCount>, city: string)
    ensures |Bump(stats, city)| >= |stats|
    ensures forall i :: 0 <= i < |stats| ==> Bump(stats, city)[i].city == stats[i].city
  {
    var r := Bump(stats, city);
    forall i | 0 <= i < |stats| ensures r[i].city == stats[i].city {
      assert Names(r)[i] == Names(stats)[i];
    }
  }

  /** Every city of the history has an item in the tally. */
  lemma {:induction false} TallyCovers(history: seq<HistoryItem>)
    ensures forall k :: 0 <= k < |history| ==> history[k].city in Names(Tally(history))
  {
    if |history| > 0 {
      var prefix := history[..|history| - 1];
      var last := history[|history| - 1].city;
      var before := Tally(prefix);
      TallyCovers(prefix);
      var names := Names(Bump(before, last));
      assert Names(before) <= names;
      forall k | 0 <= k < |history| ensures history[k].city in names {
        if k < |prefix| {
          assert history[k] == prefix[k];
          assert history[k].city in Names(before);
        }
      }
    }
  }

  /** The tally has one item per city. */
  lemma {:induction false} TallyDistinct(history: seq<HistoryItem>)
    ensures DistinctNames(Tally(history))
  {
    if |history| > 0 {
      var prefix := history[..|history| - 1];
      var last := history[|history| - 1].city;
      var before := Tally(prefix);
      var stats := Bump(before, last);
      TallyDistinct(prefix);
      BumpKeepsNames(before, last);
      if last !in Names(before) {
        assert |stats| == |before| + 1 by {
          assert |Names(stats)| == |Names(before)| + 1;
        }
        assert stats[|before|].city == last;
        forall i | 0 <= i < |before| ensures stats[i].city != last {
          assert Names(before)[i] == before[i].city;
        }
      }
    }
  }

  /** Each item of the tally counts the occurrences of its city. */
  lemma {:induction false} TallyCounts(history: seq<HistoryItem>)
    ensures forall i :: 0 <= i < |Tally(history)| ==> Tally(history)[i].count == CountCity(history, Tally(history)[i].city) >= 1
  {
    if |history| > 0 {
      var prefix := history[..|history| - 1];
      var last := history[|history| - 1].city;
      var before := Tally(prefix);
      var stats := Bump(before, last);
      TallyCounts(prefix);
      BumpKeepsNames(before, last);
      assert Tally(history) == stats;
      forall i | 0 <= i < |stats| ensures stats[i].count == CountCity(history, stats[i].city) >= 1 {
        var c := stats[i].city;
        assert CountCity(history, c) == CountCity(prefix, c) + (if last == c then 1 else 0);
        if i < |before| {
          assert c == before[i].city;
          assert before[i].count == CountCity(prefix, c) >= 1;
        } else {
          assert last !in Names(before) && i == |before|;
          assert stats[i] == CityCount(last, 1);
          TallyCovers(prefix);
          CountAbsent(prefix, last);
        }
      }
    }
  }

  /**
   * The tally holds one item per city of the history, each with the number
   * of times that city occurs.
   */
  lemma TallySpec(history: seq<HistoryItem>)
    ensures DistinctNames(Tally(history))
    ensures forall i :: 0 <= i < |Tally(history)| ==> Tally(history)[i].count == CountCity(history, Tally(history)[i].city) >= 1
    ensures forall k :: 0 <= k < |history| ==> history[k].city in Names(Tally(history))
  {
    TallyDistinct(history);
    TallyCounts(history);
    TallyCovers(history);
  }

  /** A city that does not occur is counted zero times. */
  lemma {:induction false} CountAbsent(history: seq<HistoryItem>, city: string)
    requires forall k :: 0 <= k < |history| ==> history[k].city != city
    ensures CountCity(history, city) == 0
  {
    if |history| > 0 {
      CountAbsent(history[..|history| - 1], city);
    }
  }

  /** The index of the first entry for `city`, or the length when there is none. */
  function FirstOcc(history: seq<HistoryItem>, city: string): (p: nat)
    ensures p <= |history|
    ensures forall k :: 0 <= k < p ==> history[k].city != city
    ensures p < |history| ==> history[p].city == city
  {
    if |history| == 0 || history[0].city == city then 0
    else 1 + FirstOcc(history[1..], city)
  }

  /** A city counted at least once has a first entry. */
  lemma {:induction false} CountPresent(history: seq<HistoryItem>, city: string)
    requires CountCity(history, city) >= 1
    ensures FirstOcc(history, city) < |history|
  {
    var prefix := history[..|history| - 1];
    if history[|history| - 1].city != city {
      CountPresent(prefix, city);
      var p := FirstOcc(prefix, city);
      assert history[p] == prefix[p];
    }
  }

  /** Appending an entry moves no city's first entry, except one seen for the first time. */
  lemma FirstOccPrefix(history: seq<HistoryItem>, city: string)
    requires |history| > 0
    ensures var prefix := history[..|history| - 1];
      FirstOcc(prefix, city) < |prefix| ==> FirstOcc(history, city) == FirstOcc(prefix, city)
    ensures var prefix := history[..|history| - 1];
      FirstOcc(prefix, city) == |prefix| ==> FirstOcc(history, city) >= |prefix|
  {
    var prefix := history[..|history| - 1];
    var p := FirstOcc(prefix, city);
    if p < |prefix| {
      assert history[p] == prefix[p];
    }
  }

  /**
   * The tally lists cities in the order of their first entry in the history.
   * The history is kept newest first, so that is from the most recently
   * searched city on.
   */
  lemma {:induction false} TallyFirstAppearance(history: seq<HistoryItem>)
    ensures forall i, j :: 0 <= i < j < |Tally(history)| ==>
      FirstOcc(history, Tally(history)[i].city) < FirstOcc(history, Tally(history)[j].city)
  {
    if |history| > 0 {
      var prefix := history[..|history| - 1];
      var last := history[|history| - 1].city;
      var before := Tally(prefix);
      var stats := Bump(before, last);
      TallyFirstAppearance(prefix);
      TallyCounts(prefix);
      BumpKeepsNames(before, last);
      assert Tally(history) == stats;
      forall i | 0 <= i < |before|
        ensures FirstOcc(history, stats[i].city) == FirstOcc(prefix, before[i].city) < |prefix|
      {
        CountPresent(prefix, before[i].city);
        FirstOccPrefix(history, before[i].city);
      }
      if |stats| > |before| {
        assert last !in Names(before) && stats[|before|].city == last;
        assert FirstOcc(prefix, last) == |prefix| by {
          TallyCovers(prefix);
        }
        FirstOccPrefix(history, last);
        assert FirstOcc(history, last) == |prefix|;
      }
      forall i, j | 0 <= i < j < |stats|
        ensures FirstOcc(history, stats[i].city) < FirstOcc(history, stats[j].city)
      {
        if j < |before| {
          assert FirstOcc(prefix, before[i].city) < FirstOcc(prefix, before[j].city);
        }
      }
    }
  }

  /** Counts are the sort key. */
  function CountKey(e: CityCount): int {
    e.count
  }

  /** `dict(sorted(stats.items(), key=lambda x: x[1], reverse=True)[:10])`. */
  function SearchStats(history: seq<HistoryItem>): (r: seq<CityCount>)
    ensures |r| == Seqs.Min(|Tally(history)|, HistoryLimit)
    ensures forall i :: 0 <= i < |r| ==> r[i] in multiset(Tally(history))
  {
    Seqs.Take(Ranking.SortDesc(Tally(history), CountKey), HistoryLimit)
  }

  /**
   * The statistics hold at most ten distinct cities, most searched first,
   * each with its number of occurrences in the history.
   */
  lemma SearchStatsRanked(history: seq<HistoryItem>)
    ensures var r := SearchStats(history);
      && |r| <= HistoryLimit
      && Ranking.NonIncreasing(r, CountKey)
      && DistinctNames(r)
      && forall i :: 0 <= i < |r| ==> r[i].count == CountCity(history, r[i].city) >= 1
  {
    var t := Tally(history);
    var s := Ranking.SortDesc(t, CountKey);
    var r := SearchStats(history);
    assert Ranking.NonIncreasing(r, CountKey) by {
      Ranking.SortDescOrdered(t, CountKey);
      Ranking.TakeNonIncreasing(s, CountKey, HistoryLimit);
    }
    assert r <= s;
    SortedTally(history);
    assert DistinctNames(r) by {
      assert forall i :: 0 <= i < |r| ==> r[i] == s[i];
    }
    forall i | 0 <= i < |r| ensures r[i].count == CountCity(history, r[i].city) >= 1 {
      assert r[i] == s[i];
    }
  }

  /**
   * A city of the history that is left out of the statistics was searched
   * no more often than any city shown, and then ten are shown.
   */
  lemma SearchStatsTopTen(history: seq<HistoryItem>)
    ensures var r := SearchStats(history);
      forall k :: 0 <= k < |history| && history[k].city !in Names(r) ==>
        |r| == HistoryLimit && forall i :: 0 <= i < |r| ==> r[i].count >= CountCity(history, history[k].city)
  {
    var r := SearchStats(history);
    forall k | 0 <= k < |history| && history[k].city !in Names(r)
      ensures |r| == HistoryLimit && forall i :: 0 <= i < |r| ==> r[i].count >= CountCity(history, history[k].city)
    {
      LeftOutCity(history, k);
    }
  }

  /** Cities with equal counts keep the order of the tally (the sort is stable). */
  lemma SearchStatsStable(history: seq<HistoryItem>)
    ensures forall v :: Ranking.WithKey(SearchStats(history), CountKey, v) <= Ranking.WithKey(Tally(history), CountKey, v)
  {
    var t := Tally(history);
    var s := Ranking.SortDesc(t, CountKey);
    forall v ensures Ranking.WithKey(SearchStats(history), CountKey, v) <= Ranking.WithKey(t, CountKey, v) {
      Ranking.SortDescStable(t, CountKey, v);
      Ranking.WithKeyOfTake(s, CountKey, HistoryLimit, v);
    }
  }

  /**
   * Cities with equal counts are shown in the order of their first entry in
   * the history, that is, the most recently searched first.
   */
  lemma SearchStatsTiesByRecency(history: seq<HistoryItem>)
    ensures forall i, j :: 0 <= i < j < |SearchStats(history)| && SearchStats(history)[i].count == SearchStats(history)[j].count ==>
      FirstOcc(history, SearchStats(history)[i].city) < FirstOcc(history, SearchStats(history)[j].city)
  {
    var t := Tally(history);
    var s := Ranking.SortDesc(t, CountKey);
    var r := SearchStats(history);
    var rank := (e: CityCount) => FirstOcc(history, e.city);
    TallyFirstAppearance(history);
    assert forall i, j :: 0 <= i < j < |t| ==> rank(t[i]) < rank(t[j]);
    Ranking.SortDescTiesRanked(t, CountKey, rank);
    forall i, j | 0 <= i < j < |r| && r[i].count == r[j].count
      ensures FirstOcc(history, r[i].city) < FirstOcc(history, r[j].city)
    {
      assert r[i] == s[i] && r[j] == s[j];
      assert CountKey(s[i]) == CountKey(s[j]);
    }
  }

  /** The sorted tally still holds distinct cities, each with its true count. */
  lemma SortedTally(history: seq<HistoryItem>)
    ensures DistinctNames(Ranking.SortDesc(Tally(history), CountKey))
    ensures forall i :: 0 <= i < |Ranking.SortDesc(Tally(history), CountKey)| ==>
      Ranking.SortDesc(Tally(history), CountKey)[i].count == CountCity(history, Ranking.SortDesc(Tally(history), CountKey)[i].city) >= 1
  {
    var t := Tally(history);
    var s := Ranking.SortDesc(t, CountKey);
    TallyDistinct(history);
    TallyCounts(history);
    forall i | 0 <= i < |s| ensures s[i].count == CountCity(history, s[i].city) >= 1 {
      assert s[i] in multiset(t);
    }
    PermutationDistinct(t, s);
  }

  /** Rearranging items with distinct names keeps the names distinct. */
  lemma PermutationDistinct(t: seq<CityCount>, s: seq<CityCount>)
    requires DistinctNames(t) && multiset(s) == multiset(t)
    requires forall i :: 0 <= i < |s| ==> s[i].count == CountKey(s[i])
    requires forall i, j :: 0 <= i < |s| && 0 <= j < |s| && s[i].city == s[j].city ==> s[i].count == s[j].count
    ensures DistinctNames(s)
  {
    forall i, j | 0 <= i < j < |s| ensures s[i].city != s[j].city {
      if s[i].city == s[j].city {
        assert s[i] == s[j];
        assert multiset(s)[s[i]] >= 2 by {
          assert s == s[..j] + s[j..];
          assert s[i] in s[..j];
        }
        DistinctAtMostOnce(t, s[i]);
      }
    }
  }

  /**
   * A city of the history missing from the statistics lost to each of the
   * ten cities shown.
   */
  lemma LeftOutCity(history: seq<HistoryItem>, k: nat)
    requires k < |history| && history[k].city !in Names(SearchStats(history))
    ensures var r := SearchStats(history);
      |r| == HistoryLimit && forall i :: 0 <= i < |r| ==> r[i].count >= CountCity(history, history[k].city)
  {
    var t := Tally(history);
    var s := Ranking.SortDesc(t, CountKey);
    var r := SearchStats(history);
    var c := history[k].city;
    TallyCovers(history);
    var m :| 0 <= m < |t| && Names(t)[m] == c;
    var p := Seqs.IndexInPermutation(t, s, m);
    assert s[p].count == CountCity(history, c) by {
      TallyCounts(history);
      assert t[m].city == c;
    }
    assert |r| <= p by {
      assert forall i :: 0 <= i < |r| ==> Names(r)[i] == s[i].city;
    }
    Ranking.SortDescOrdered(t, CountKey);
    TakeDominates(s, HistoryLimit, p);
  }

  /**
   * In a list sorted by count, every item of a prefix that stops before
   * position `p` counts at least as much as the item at `p`.
   */
  lemma TakeDominates(s: seq<CityCount>, n: nat, p: nat)
    requires Ranking.NonIncreasing(s, CountKey) && p < |s| && |Seqs.Take(s, n)| <= p
    ensures forall i :: 0 <= i < |Seqs.Take(s, n)| ==> Seqs.Take(s, n)[i].count >= s[p].count
  {
    var r := Seqs.Take(s, n);
    forall i | 0 <= i < |r| ensures r[i].count >= s[p].count {
      assert r[i] == s[i];
      assert CountKey(s[i]) >= CountKey(s[p]);
    }
  }

  /** In a sequence of distinct names, each item occurs at most once. */
  lemma {:induction false} DistinctAtMostOnce(stats: seq<CityCount>, x: CityCount)
    requires DistinctNames(stats)
    ensures multiset(stats)[x] <= 1
  {
    if |stats| > 0 {
      assert stats == [stats[0]] + stats[1..];
      DistinctAtMostOnce(stats[1..], x);
      if stats[0] == x {
        assert x !in stats[1..];
      }
    }
  }

  // ===========================================================================
  // autocomplete

  /** One Open-Meteo search result: `name` and `country`, each possibly missing. */
  datatype Candidate = Candidate(name: Option<string>, country: Option<string>)

  /**
   * The Open-Meteo search for a term: its `results` list (empty when the
   * key is missing), or None when the request or the JSON decoding fails.
   */
  type PlaceSearch = string -> Option<seq<Candidate>>

  /** The suggestions sent back, and the term the provider was asked about, if any. */
  datatype Completion = Completion(suggestions: seq<string>, query: Option<string>)

  /** Terms shorter than this, once stripped, are not looked up. */
  const MinTermLength: nat := 2

  /** f"{name}, {country}". */
  function Suggestion(name: string, country: string): (s: string)
    ensures Lacks(name, ',') ==> FindFirst(s, ',') == Some(|name|)
    ensures |s| >= |name| + 2 && s[..|name|] == name && s[|name|] == ',' && s[|name| + 1] == ' '
    ensures s[|name| + 2..] == country
  {
    var s := name + ", " + country;
    if Lacks(name, ',') then
      assert s[..|name|] == name;
      FindFirstAfterFree(name, ',', s);
      s
    else s
  }

  /** The list comprehension; a result without `name` raises, which the view turns into []. */
  function Suggestions(results: seq<Candidate>): (r: Option<seq<string>>)
    ensures r.None? <==> exists k :: 0 <= k < |results| && results[k].name.None?
    ensures r.Some? ==> |r.value| == |results|
    ensures r.Some? ==> forall k :: 0 <= k < |results| ==>
      r.value[k] == Suggestion(results[k].name.value, if results[k].country.Some? then results[k].country.value else "")
  {
    if |results| == 0 then Some([])
    else
      var head := results[0];
      match head.name
      case None => None
      case Some(name) =>
        match Suggestions(results[1..])
        case None =>
          assert forall k :: 0 < k < |results| ==> results[k] == results[1..][k - 1];
          None
        case Some(rest) =>
          var first := Suggestion(name, if head.country.Some? then head.country.value else "");
          assert forall k :: 0 < k < |results| ==> results[k] == results[1..][k - 1];
          Some([first] + rest)
  }

  /**
   * `autocomplete`: no `term`, or one shorter than two characters once
   * stripped, gives [] without a query; otherwise the stripped term is
   * looked up and each result becomes "name, country" in order, with ''
   * for a missing country; any failure gives [].
   */
  function Autocomplete(term: Option<string>, search: PlaceSearch): (c: Completion)
    ensures term.None? ==> c == Completion([], None)
    ensures term.Some? && |Strip(term.value)| < MinTermLength ==> c == Completion([], None)
    ensures term.Some? && |Strip(term.value)| >= MinTermLength ==>
      var t := Strip(term.value);
      && c.query == Some(t)
      && (search(t).None? ==> c.suggestions == [])
      && (search(t).Some? ==>
            var results := search(t).value;
            && ((exists k :: 0 <= k < |results| && results[k].name.None?) ==> c.suggestions == [])
            && ((forall k :: 0 <= k < |results| ==> results[k].name.Some?) ==>
                  && |c.suggestions| == |results|
                  && forall k :: 0 <= k < |results| ==>
                       c.suggestions[k] == Suggestion(results[k].name.value,
                                                       if results[k].country.Some? then results[k].country.value else "")))
  {
    match term
    case None => Completion([], None)
    case Some(raw) =>
      var t := Strip(raw);
      if |t| < MinTermLength then Completion([], None)
      else
        match search(t)
        case None => Completion([], Some(t))
        case Some(results) =>
          match Suggestions(results)
          case None => Completion([], Some(t))
          case Some(s) => Completion(s, Some(t))
  }

  /**
   * A suggestion typed back into the search form comes apart into the same
   * city and country, provided the place name is trimmed, non-empty and has
   * no comma, and the country is trimmed.
   */
  lemma SuggestionRoundTrip(name: string, country: string)
    requires |name| > 0 && Lacks(name, ',') && Trimmed(name, Whitespace)
    requires Trimmed(country, Whitespace)
    ensures ParseCityInput(Suggestion(name, country)) == Some(CityQuery(name, country))
  {
    var s := Suggestion(name, country);
    assert ParseCityInput(s) == Some(SplitQuery(Strip(s), ',')) by {
      var t := StrippedSuggestion(name, country);
    }
    assert SplitQuery(Strip(s), ',') == CityQuery(name, country) by {
      var rest := if |country| == 0 then [] else [' '] + country;
      var t := StrippedSuggestion(name, country);
      SplitAtFirst(name, ',', rest);
      StripPadded(' ', country);
    }
  }

  /** A trimmed text behind a whitespace pad strips back to itself. */
  lemma StripPadded(pad: char, country: string)
    requires pad in Whitespace && Trimmed(country, Whitespace)
    ensures Strip(if |country| == 0 then [] else [pad] + country) == country
  {
    StripCharsIdentity(country, Whitespace);
    if |country| > 0 {
      StripCharsDropsLead(pad, country, Whitespace);
    }
  }

  /** Splitting `name + sep + rest` with a trimmed, separator-free name gives back the name. */
  lemma SplitAtFirst(name: string, sep: char, rest: string)
    requires Lacks(name, sep) && Trimmed(name, Whitespace)
    ensures SplitQuery(name + [sep] + rest, sep) == CityQuery(name, Strip(rest))
  {
    var t := name + [sep] + rest;
    var n := |name|;
    assert t[..n] == name && t[n + 1..] == rest;
    FindFirstAfterFree(name, sep, t);
    StripCharsIdentity(name, Whitespace);
  }

  /** The stripped suggestion: all of it, or "name," when the country is empty. */
  lemma StrippedSuggestion(name: string, country: string) returns (t: string)
    requires |name| > 0 && Trimmed(name, Whitespace)
    requires Trimmed(country, Whitespace)
    ensures t == Strip(Suggestion(name, country))
    ensures t == name + [','] + (if |country| == 0 then [] else [' '] + country)
  {
    assert ',' !in Whitespace && ' ' in Whitespace;
    assert Suggestion(name, country) == name + [',', ' '] + country;
    StripAroundSeparator(name, ',', ' ', country, Whitespace);
    if |country| == 0 {
      t := name + [','];
    } else {
      t := name + [',', ' '] + country;
      assert t == name + [','] + ([' '] + country);
    }
  }

  /**
   * Stripping `name + sep + pad + country` with trimmed parts: only the pad
   * goes, and only when the country is empty.
   */
  lemma StripAroundSeparator(name: string, sep: char, pad: char, country: string, cs: set<char>)
    requires sep !in cs && pad in cs
    requires |name| > 0 && Trimmed(name, cs)
    requires Trimmed(country, cs)
    ensures |country| == 0 ==> StripChars(name + [sep, pad] + country, cs) == name + [sep]
    ensures |country| > 0 ==> StripChars(name + [sep, pad] + country, cs) == name + [sep, pad] + country
  {
    var s := name + [sep, pad] + country;
    if |country| == 0 {
      assert s == (name + [sep]) + [pad];
      StripCharsDropsTrail(name + [sep], pad, cs);
      assert (name + [sep])[0] == name[0];
      StripCharsIdentity(name + [sep], cs);
    } else {
      assert s[0] == name[0] && s[|s| - 1] == country[|country| - 1];
      StripCharsIdentity(s, cs);
    }
  }
}

=== FILE: weather_extras.dfy ===
/**
 * The `wind_direction` template filter: a bearing in degrees becomes one of
 * eight compass labels (in Russian), each covering 45 degrees centred on
 * its direction.
 */
module WeatherExtras {
  import opened Wrappers

  /** Shown when there is no bearing. */
  const NoBearing: string := "—"

  /** North, north-east, east, ... clockwise, one label per 45 degrees. */
  const Directions: seq<string> := ["С", "С-В", "В", "Ю-В", "Ю", "Ю-З", "З", "С-З"]

  /** Python's `int()` on a float: rounds toward zero. */
  function Trunc(x: real): (r: int)
    ensures x >= 0.0 ==> r as real <= x < r as real + 1.0
    ensures x < 0.0 ==> r as real - 1.0 < x <= r as real
  {
    if x >= 0.0 then x.Floor else -((-x).Floor)
  }

  /** `int((degree + 22.5) / 45) % 8`, with Python's non-negative `%`. */
  function SectorIndex(degree: real): (ix: int)
    ensures 0 <= ix < |Directions|
  {
    Trunc((degree + 22.5) / 45.0) % 8
  }

  /** `wind_direction(degree)`. */
  function WindDirection(degree: Option<real>): (r: string)
    ensures degree.None? ==> r == NoBearing
    ensures degree.Some? ==> r in Directions
  {
    if degree.None? then NoBearing else Directions[SectorIndex(degree.value)]
  }

  /**
   * A bearing from 45k - 22.5 (inclusive) to 45k + 22.5 (exclusive), k >= 0,
   * gets the k-th label, counting round the compass.
   */
  lemma WindDirectionSector(degree: real, k: nat)
    requires 45.0 * k as real - 22.5 <= degree < 45.0 * k as real + 22.5
    ensures WindDirection(Some(degree)) == Directions[k % 8]
  {
    var x := (degree + 22.5) / 45.0;
    assert k as real <= x < k as real + 1.0;
    assert Trunc(x) == k;
  }

  /**
   * North (label 0, "С"), east (2, "В"), south (4, "Ю") and west (6, "З"),
   * the sector boundary at 22.5, and the wrap-round at the top of the compass.
   */
  lemma CardinalPoints()
    ensures WindDirection(Some(0.0)) == Directions[0]
    ensures WindDirection(Some(90.0)) == Directions[2]
    ensures WindDirection(Some(180.0)) == Directions[4]
    ensures WindDirection(Some(270.0)) == Directions[6]
    ensures WindDirection(Some(22.5)) == Directions[1]
    ensures WindDirection(Some(337.5)) == Directions[0]
    ensures WindDirection(Some(360.0)) == Directions[0]
  {
    WindDirectionSector(0.0, 0);
    WindDirectionSector(90.0, 2);
    WindDirectionSector(180.0, 4);
    WindDirectionSector(270.0, 6);
    WindDirectionSector(22.5, 1);
    WindDirectionSector(337.5, 8);
    WindDirectionSector(360.0, 8);
  }

  /** A full turn does not change the label of a bearing of -22.5 or more. */
  lemma WindDirectionPeriodic(degree: real)
    requires degree >= -22.5
    ensures WindDirection(Some(degree + 360.0)) == WindDirection(Some(degree))
  {
    var x := (degree + 22.5) / 45.0;
    assert (degree + 360.0 + 22.5) / 45.0 == x + 8.0;
    var t := Trunc(x);
    assert Trunc(x + 8.0) == t + 8;
    assert (t + 8) % 8 == t % 8;
    assert SectorIndex(degree + 360.0) == SectorIndex(degree);
  }

  /**
   * Below -22.5 the truncation rounds the wrong way: -30 lies in the sector
   * centred on -45 (north-west), but the filter labels it north.
   */
  lemma NegativeBearingMislabelled()
    ensures 45.0 * -1.0 - 22.5 <= -30.0 < 45.0 * -1.0 + 22.5
    ensures WindDirection(Some(-30.0)) == "С"
    ensures Directions[-1 % 8] == "С-З"
  {
    assert Trunc((-30.0 + 22.5) / 45.0) == 0;
  }

  /**
   * Inside the k-th sector below north (k >= 1, boundaries excluded) the
   * filter as written gives the label of the next sector clockwise.
   */
  lemma NegativeSectorShifted(degree: real, k: int)
    requires k >= 1
    requires -45.0 * k as real - 22.5 < degree < -45.0 * k as real + 22.5
    ensures WindDirection(Some(degree)) == Directions[(1 - k) % 8]
    ensures (1 - k) % 8 != (-k) % 8
  {
    var x := (degree + 22.5) / 45.0;
    assert -(k as real) < x < 1.0 - k as real;
    assert Trunc(x) == 1 - k;
  }

  /** The lower boundary of each such sector is labelled right, since the quotient is whole there. */
  lemma NegativeBoundaryRight(k: int)
    requires k >= 1
    ensures WindDirection(Some(-45.0 * k as real - 22.5)) == Directions[(-k) % 8]
  {
    var x := (-45.0 * k as real - 22.5 + 22.5) / 45.0;
    assert x == -(k as real);
    assert Trunc(x) == -k;
  }

  /** The same filter with the quotient rounded down, as the sectors call for. */
  function SectorIndexFloor(degree: real): (ix: int)
    ensures 0 <= ix < |Directions|
  {
    ((degree + 22.5) / 45.0).Floor % 8
  }

  function WindDirectionFloor(degree: Option<real>): (r: string)
    ensures degree.None? ==> r == NoBearing
    ensures degree.Some? ==> r in Directions
  {
    if degree.None? then NoBearing else Directions[SectorIndexFloor(degree.value)]
  }

  /** Every bearing, negative ones included, gets the label of its sector. */
  lemma WindDirectionFloorSector(degree: real, k: int)
    requires 45.0 * k as real - 22.5 <= degree < 45.0 * k as real + 22.5
    ensures WindDirectionFloor(Some(degree)) == Directions[k % 8]
  {
    var x := (degree + 22.5) / 45.0;
    assert k as real <= x < k as real + 1.0;
  }

  /** A full turn either way never changes the corrected label. */
  lemma WindDirectionFloorPeriodic(degree: real)
    ensures WindDirectionFloor(Some(degree + 360.0)) == WindDirectionFloor(Some(degree))
    ensures WindDirectionFloor(Some(degree - 360.0)) == WindDirectionFloor(Some(degree))
  {
    var x := (degree + 22.5) / 45.0;
    var f := x.Floor;
    assert (degree + 360.0 + 22.5) / 45.0 == x + 8.0;
    assert (x + 8.0).Floor == f + 8;
    assert (f + 8) % 8 == f % 8;
    assert SectorIndexFloor(degree + 360.0) == SectorIndexFloor(degree);
    assert (degree - 360.0 + 22.5) / 45.0 == x - 8.0;
    assert (x - 8.0).Floor == f - 8;
    assert (f - 8) % 8 == f % 8;
    assert SectorIndexFloor(degree - 360.0) == SectorIndexFloor(degree);
  }

  /** For bearings of -22.5 and up, which is every bearing a weather service reports, the two agree. */
  lemma WindDirectionAgrees(degree: Option<real>)
    requires degree.Some? ==> degree.value >= -22.5
    ensures WindDirection(degree) == WindDirectionFloor(degree)
  {
  }
}

=== FILE: wrappers.dfy ===
/** Python's "value or None", used for every lookup, provider and optional field. */
module Wrappers {

  datatype Option<+T> = None | Some(value: T) {

    /** The value, or `default` when there is none (Python's `d.get(k, default)`). */
    function GetOr(default: T): T {
      match this
      case Some(v) => v
      case None => default
    }
  }
}
